=== FILE: README.md ===
# Session and authorization core of a NestJS account and blog service

This project models, in Dafny, the request pipeline and account logic of a small NestJS
service with user accounts and a blog. The modelled parts are:

- **Authentication guard.** It reads an access token from the `Authentication` cookie,
  verifies it and binds the token's claims to `request.user`. It also has an unused
  `Authorization: Bearer` header extractor (section 2.1 of RFC 6750).
- **Role guard.** It trims and upper-cases the roles a handler declares with `@Roles`. It
  admits the principal when one of those roles occurs as a substring of the principal's
  single `authority` string.
- **Account service.** Registration, login, the user list, lookup, update and removal, over
  an in-memory user table and a login log. The `User` entity's `@AfterLoad` and
  `@BeforeInsert`/`@BeforeUpdate` hooks decide when a password is re-hashed.
- **Account controller.** It maps login results to responses and handles logout and the
  profile.
- **Route table.** The guards and roles declared on every route of the `api`, `blog` and
  `user` controllers. Combined with the two guards, it yields access-control facts per
  route.
- **Blog category service.** Category creation (the new category goes last in sort order),
  update, lookup and the sorted list.
- **Helpers.** The `IsNotEmptyString` validator, the response envelope builders and the
  response interceptor's envelope merge.

The model is one Dafny module per source file, plus these helper modules:

| Module | Contents |
|---|---|
| `Wrappers` | `Option` |
| `Text` | The JavaScript string operations the code relies on: `trim`, `toUpperCase`, `includes` and `split` |
| `JsValues` | JavaScript values, truthiness and object spread |
| `Payloads` | The token claims record |
| `UserStore` | The user and login-log tables, shared by the account service and the account controller |

The model follows the code wherever it departs from the system's documented intent. Each
of these departures is proved about the model:

- **No revocation check.** The authentication guard never compares the token's `loginkey`
  with the stored one. Logging out, or logging in elsewhere, therefore does not invalidate
  a token that still verifies (`Routes.LogoutDoesNotRevoke`, `AuthGuard.OnlyTokenMatters`).
- **Cookie names do not match.** The guard reads the cookie `Authentication`, but login sets
  `accessToken` and `refreshToken`. A browser holding only what login gave it is refused on
  every guarded route (`Routes.LoginCookiesNeverAuthenticate`).
- **No cookies are cleared on failure.** The guard clears no cookie when it rejects a
  request.
- **Failed logins are not logged.** Only successful logins append a log entry.
- **Login failures are distinguishable.** The 403 body of a failed login says whether the
  username or the password was wrong.
- **Roles match by substring.** Role matching uses substring search, not set membership. A
  blank declared role therefore admits everyone (`RolesGuard.BlankRoleAdmitsAll`).

Library calls become parameters:

| Library call | Parameter |
|---|---|
| `bcrypt.hash` | `hash` |
| `bcrypt.compare` | `matches` |
| `uuidv4()` | `freshKey` |
| `jwtService.sign` | `sign` |
| `jwtService.verifyAsync` | `verify: string -> Option<Payload>` (`None` for every rejection) |
| the request's `referer` header | `referer` |

Repositories become a class holding sequences of rows.

## Model

| member | source | states |
|---|---|---|
| Text.Trim | src/common/guards/roles.guard.ts:42 | `trim` returns a slice of its input with only white space before and after it, and that slice is empty or starts and ends with a non-white-space character |
| Text.Utf16Length | src/common/decorator/is-not-empty-string.decorator.ts:24 | `length` counts UTF-16 code units: between the number of code points and twice it, and equal to it exactly when every code point lies in the Basic Multilingual Plane |
| Text.Utf16LengthBmpSlice | src/common/decorator/is-not-empty-string.decorator.ts:24 | a slice of text inside the Basic Multilingual Plane has as many code units as code points |
| Text.TrimIdempotent | src/common/decorator/is-not-empty-string.decorator.ts:21 | trimming a trimmed string changes nothing |
| Text.TrimEmptyOnlyIfAllSpace | src/common/decorator/is-not-empty-string.decorator.ts:21-22 | a string trims to "" only if it is all white space |
| Text.Upper | src/common/guards/roles.guard.ts:42 | `toUpperCase` keeps the length and maps each character to its upper case |
| Text.IncludesIff | src/common/guards/roles.guard.ts:43 | `includes` holds exactly when the needle occurs at some position of the string |
| Text.Split | src/common/guards/auth.guard.ts:47 | `split(' ')` gives at least one part and no part contains the separator |
| Text.JoinSplit | src/common/guards/auth.guard.ts:47 | joining the parts of a split with the separator gives back the original string |
| Text.SplitJoin | src/common/guards/auth.guard.ts:47 | splitting a join of separator-free parts gives back those parts |
| JsValues.IndexKeyInjective | src/common/interceptors/response.interceptor.ts:20 | distinct indices get distinct numeral keys |
| JsValues.IndexEntries | src/common/interceptors/response.interceptor.ts:20 | spreading an array gives, for every index, the numeral key mapped to that element, and no other key |
| JsValues.Spread | src/common/interceptors/response.interceptor.ts:20 | spreading an object copies exactly its fields; an array or string gives exactly its index keys, each mapped to its element (a one-character string for a string); undefined, null, booleans and numbers give nothing |
| JsValues.SpreadPairAndNumber | src/common/interceptors/response.interceptor.ts:20 | a two-element array spreads to exactly the keys "0" and "1" with its elements; a number spreads to nothing |
| JsValues.SpreadNamedKey | src/common/interceptors/response.interceptor.ts:20 | a property name not starting with a digit comes from a spread exactly when the value is an object with that field, and carries that field's value |
| ResponseUtil.Defaulted | src/common/utils/response.util.ts:2 | a parameter left `undefined` takes its default value and any other argument is kept |
| ResponseUtil.SuccessResponse | src/common/utils/response.util.ts:2-7 | exactly the keys result, message, error and data: `result: true`, `error: null`, data unchanged, message defaulting to '성공' |
| ResponseUtil.PaginatedResponse | src/common/utils/response.util.ts:9-23 | data, total, page and limit are echoed unchanged, with `result: true`, `error: null` and a message defaulting to '목록 조회 성공' |
| ResponseUtil.ErrorResponse | src/common/utils/response.util.ts:25-29 | `result: false`, the message, and `error = {code, details}`, with no data key |
| ResponseUtil.DataOnlyResponse | src/common/utils/response.util.ts:31-33 | the only key is data, holding the argument |
| ResponseInterceptor.Intercept | src/common/interceptors/response.interceptor.ts:15-22 | the keys are result, message and error plus the data's spread keys; every spread key keeps the data's value; a missing result is true and a missing error is null |
| ResponseInterceptor.InterceptMessage | src/common/interceptors/response.interceptor.ts:18-20 | the message is the data's own message whenever it has one, even a falsy one, and otherwise the default message |
| ResponseInterceptor.InterceptNullish | src/common/interceptors/response.interceptor.ts:15-21 | null or undefined data yields exactly the three defaults |
| ResponseInterceptor.EnvelopeFixedPoint | src/common/interceptors/response.interceptor.ts:16-21 | an object that already has result, message and error passes through unchanged |
| ResponseInterceptor.InterceptIdempotent | src/common/interceptors/response.interceptor.ts:16-21 | intercepting an intercepted result changes nothing |
| ResponseInterceptor.HelpersPassThrough | src/common/interceptors/response.interceptor.ts:16-21 | the success, paginated and error envelopes pass through the interceptor unchanged |
| ResponseInterceptor.DataOnlyGainsDefaults | src/common/interceptors/response.interceptor.ts:16-21 | a data-only envelope gains exactly `result: true`, the default message and `error: null` |
| NotEmptyString.Validate | src/common/decorator/is-not-empty-string.decorator.ts:17-25 | accepted iff the value is a string whose trimmed form is non-empty and has a UTF-16 length between min and max; an accepted value is never all white space |
| NotEmptyString.BmpCountsCharacters | src/common/decorator/is-not-empty-string.decorator.ts:21-24 | for text inside the Basic Multilingual Plane the bounds count the characters of the trimmed string |
| NotEmptyString.AstralCountsTwice | src/common/decorator/is-not-empty-string.decorator.ts:24 | one emoji has length 2: it meets bounds 2 to 5 and fails bounds 1 to 1 |
| NotEmptyString.NonStringRejected | src/common/decorator/is-not-empty-string.decorator.ts:19 | every non-string is rejected |
| NotEmptyString.BlankRejected | src/common/decorator/is-not-empty-string.decorator.ts:21-22 | the empty string and all-white-space strings are rejected |
| NotEmptyString.SurroundingSpaceIgnored | src/common/decorator/is-not-empty-string.decorator.ts:21-24 | a string and its trimmed form get the same verdict |
| NotEmptyString.EmptyRangeRejectsAll | src/common/decorator/is-not-empty-string.decorator.ts:24 | with min > max nothing is accepted |
| RolesGuard.SomeIncludedIff | src/common/guards/roles.guard.ts:42-43 | the `some` over normalised roles holds exactly when some declared role, trimmed and upper-cased, is a substring of the authority |
| RolesGuard.CanActivate | src/common/guards/roles.guard.ts:11-31 | no metadata allows even without a principal; metadata without a principal is the TypeError; otherwise allowed iff the metadata is a list, the authority is non-empty and some normalised role occurs in it, and a bound principal that is not allowed is forbidden (403) |
| RolesGuard.EmptyListDenies | src/common/guards/roles.guard.ts:42-43 | an empty declared list forbids every principal |
| RolesGuard.MalformedDenies | src/common/guards/roles.guard.ts:38-40 | metadata that is not a list, or an empty authority, is forbidden |
| RolesGuard.NormalizeCanonical | src/common/guards/roles.guard.ts:42 | a role without surrounding white space or lower-case letters is its own normal form |
| RolesGuard.NormalizeUpperAndPadding | src/common/guards/roles.guard.ts:42 | any white-space padding before and after a declared role, independently chosen, is dropped, and the role is upper-cased |
| RolesGuard.AuthorityNotNormalized | src/common/guards/roles.guard.ts:43 | the authority is not normalised: one differing from a same-length role (for instance only in case) is not allowed |
| RolesGuard.BlankRoleAdmitsAll | src/common/guards/roles.guard.ts:42-43 | a blank declared role admits every principal with a non-empty authority |
| RolesGuard.RoleNamesCanonical | src/common/guards/roles.guard.ts:42 | `ROLE_USER` and `ROLE_ADMIN` are their own normal forms |
| RolesGuard.UserAgainstAdmin | src/common/guards/roles.guard.ts:43 | authority `ROLE_USER` is forbidden on `[ROLE_ADMIN]` and allowed on `[ROLE_ADMIN, ROLE_USER]` |
| AuthGuard.Request.constructor | src/common/guards/auth.guard.ts:22-23 | an incoming request carries its cookies and header and no bound principal |
| AuthGuard.ExtractTokenFromRequest | src/common/guards/auth.guard.ts:52-55 | a token exactly when the request has cookies including `Authentication`, and it is that cookie's value |
| AuthGuard.ExtractTokenFromHeader | src/common/guards/auth.guard.ts:46-49 | a token iff the header starts with "Bearer " (case-sensitive), and then it is the text after that space up to the next space |
| AuthGuard.BearerRoundTrip | src/common/guards/auth.guard.ts:46-49 | the header "Bearer " + t yields t for every space-free token t |
| AuthGuard.Authenticate | src/common/guards/auth.guard.ts:22-43 | a principal iff the `Authentication` cookie is present, non-empty and accepted by the verifier, and it is exactly the verified claims |
| AuthGuard.CanActivate | src/common/guards/auth.guard.ts:22-43 | true iff authentication succeeds, binding exactly the verified claims; on rejection `request.user` is unchanged |
| AuthGuard.OnlyTokenMatters | src/common/guards/auth.guard.ts:22-43 | two requests agreeing on the `Authentication` cookie get the same outcome; no store or login key is read |
| AuthGuard.NoCookieRejected | src/common/guards/auth.guard.ts:25-28 | without the cookie the guard rejects whatever the verifier says |
| UserEntity.User.Create | src/users/entity/user.entity.ts:24-25 | a new entity has the given fields, the default login key "1234567890" and no load-time snapshot |
| UserEntity.User.Load | src/users/entity/user.entity.ts:44-47 | a loaded entity holds the row and snapshots its stored password |
| UserEntity.User.LoadTempPassword | src/users/entity/user.entity.ts:44-47 | the snapshot becomes the current password |
| UserEntity.User.HashPassword | src/users/entity/user.entity.ts:49-55 | the password is replaced by its hash iff it is non-empty and differs from the snapshot; nothing else changes and the snapshot is not refreshed |
| UserEntity.StoredPassword | src/users/entity/user.entity.ts:52-54 | a never-loaded entity stores the hash of a non-empty password and keeps an empty one |
| UserEntity.LoadedUnchangedKept | src/users/entity/user.entity.ts:52 | a loaded entity whose password was not touched is not re-hashed |
| UserEntity.EmptyNeverHashed | src/users/entity/user.entity.ts:52 | an empty password is never hashed |
| UserEntity.ChangedAfterLoadHashed | src/users/entity/user.entity.ts:52-54 | a non-empty password changed after loading is hashed |
| UserEntity.SecondSaveRehashes | src/users/entity/user.entity.ts:52-54 | because the snapshot is not refreshed, saving a new entity twice hashes its hash again |
| UserStore.IndexOfUsername | src/auth/auth.service.ts:44-46 | the first row with exactly that username, or none iff no row has it |
| UserStore.IndexOfNickname | src/auth/auth.service.ts:62 | a row with exactly that nickname, or none iff no row has it |
| UserStore.WithoutId | src/auth/auth.service.ts:256 | no remaining row has the deleted id, every remaining row was already in the table, and the table does not grow |
| UserStore.WithoutUniqueId | src/auth/auth.service.ts:256 | with unique ids, deleting a row's id removes exactly that row and keeps the rest in order |
| UserStore.WithoutAbsentId | src/auth/auth.service.ts:256 | deleting an id no row has changes nothing |
| UserStore.WithLoginKey | src/auth/auth.controller.ts:127 | the rows with the id get the new key and every other row is kept |
| UserStore.Store.constructor | src/auth/auth.service.ts:20-26 | empty tables, ids generated from 1 |
| UserStore.Store.Insert | src/auth/auth.service.ts:82 | runs the insert hook, assigns the next id and appends exactly that row |
| UserStore.Store.Save | src/auth/auth.service.ts:134 | runs the update hook and overwrites exactly that row |
| UserStore.Store.Delete | src/auth/auth.service.ts:256 | the rows become those without the id; ids stay unique |
| UserStore.Store.UpdateLoginKey | src/auth/auth.controller.ts:127 | a direct update of the login key that runs no hook |
| UserStore.Store.AppendLog | src/auth/auth.service.ts:135 | appends exactly one log entry |
| AuthService.AccessPayload | src/auth/auth.service.ts:138 | the access claims are the user's id, username, nickname, email and authority, with the fresh login key |
| AuthService.LoginCookies | src/auth/auth.service.ts:141-159 | `accessToken` signed for 30m with maxAge 1 800 000 and `refreshToken` signed from the id alone for 1d with maxAge 86 400 000, both httpOnly, secure and sameSite strict |
| AuthService.FindByUsername | src/auth/auth.service.ts:44-46 | a row with exactly that username, or none iff there is none |
| AuthService.RegisterUser | src/auth/auth.service.ts:49-94 | a taken username is reported first, then a taken nickname, both changing nothing; otherwise exactly one `ROLE_USER` row with the default login key and the hashed password is appended |
| AuthService.Login | src/auth/auth.service.ts:98-171 | an unknown user or a failed compare changes nothing, logs nothing and sets no cookie; otherwise only that user's login key becomes the fresh key, one SUCCESS entry is logged and the two token cookies are issued |
| AuthService.NewestFirst | src/auth/auth.service.ts:33 | the rows in reverse insertion order |
| AuthService.GetUserList | src/auth/auth.service.ts:29-41 | the total is the row count, page and limit are echoed, and the users are the newest-first rows from `(page-1)*limit` on, at most `limit` of them |
| AuthService.GetUserInfo | src/auth/auth.service.ts:185-194 | the row with that username, or none (the server error) iff there is none |
| AuthService.UpdateUserInfo | src/auth/auth.service.ts:197-243 | an unknown user is error 1 and changes nothing; otherwise success, and the row changes only when a non-empty different email is given, and then its authority is written too |
| AuthService.RemoveUserInfo | src/auth/auth.service.ts:246-264 | an unknown user is error 1 and changes nothing; otherwise exactly that user's row is deleted and the result is error 0 |
| AuthController.LoginResponseOf | src/auth/auth.controller.ts:37-46 | a SUCCESS result is returned unchanged; any other becomes `{status: 403, result: "ERROR", error: message}` |
| AuthController.LoginAccount | src/auth/auth.controller.ts:30-47 | an unknown username or a password that does not match is a 403 body naming the check, with no cookie and no change; a matching password passes with the service's success result, sets exactly that row's login key, logs one SUCCESS entry and sets the two token cookies |
| AuthController.Logout | src/auth/auth.controller.ts:122-131 | the principal's stored login key becomes "", both token cookies are cleared, and the message is '로그아웃 완료' |
| AuthController.LogoutOnlyPrincipal | src/auth/auth.controller.ts:127 | with unique ids, logout changes only the principal's own row |
| AuthController.LogoutUnknownId | src/auth/auth.controller.ts:127 | a principal whose row is gone changes nothing |
| AuthController.GetProfile | src/auth/auth.controller.ts:78-85 | none (Unauthorized) iff no principal is bound; otherwise exactly its id, username, nickname and email (the response class is assumed to hold just these; see "Left out") |
| BlogService.MaxSortOrder | src/blog/blog.service.ts:93-97 | the maximum sort order is attained by some row and bounds them all |
| BlogService.FindCategorySortOrder | src/blog/blog.service.ts:92-99 | 1 for an empty table or a maximum of 0, else the maximum plus 1, and always above every existing sort order |
| BlogService.InsertBySortOrder | src/blog/blog.service.ts:32 | inserting into a sorted list keeps it sorted and adds exactly that element |
| BlogService.SortBySortOrder | src/blog/blog.service.ts:29-33 | the result is ascending by sort order and a permutation of the rows |
| BlogService.SortAppendsLargest | src/blog/blog.service.ts:58-60 | a category with a sort order above all others is listed last, after the others in their usual order |
| BlogService.IndexOfIdIn | src/blog/blog.service.ts:44 | the first row with the id, or none iff no row has it |
| BlogService.CategoryTable.constructor | src/blog/blog.service.ts:19-24 | an empty table, ids generated from 1 |
| BlogService.CategoryTable.IndexOfId | src/blog/blog.service.ts:44 | a row with the id, or none iff no row has it |
| BlogService.CategoryTable.GetCategoryList | src/blog/blog.service.ts:27-40 | `result: true`, message '카테고리 조회성공', `error: null`, and data holding every category once in ascending sort order |
| BlogService.CategoryTable.GetCategoryInfo | src/blog/blog.service.ts:43-53 | the row iff the id exists, else `{result: false, message: '정보조회오류', error: {code: "1001", ...}}` |
| BlogService.CategoryTable.CreateCategory | src/blog/blog.service.ts:56-67 | appends exactly one category with the input's fields, a new id and a sort order above every existing one, and returns `{result: true, error: null}` |
| BlogService.CategoryTable.UpdateCategory | src/blog/blog.service.ts:71-89 | an unknown id gives `{result: false, error.code: "1001"}` and changes nothing; otherwise only that row takes the request's fields, an absent image keeping the stored one |
| Routes.DeclaredRoles | src/blog/blog.controller.ts:52-54 | a route declares roles exactly when it uses the role guard |
| Routes.Admit | src/blog/blog.controller.ts:36-37 | runs the authentication guard (`src/common/guards/auth.guard.ts:22-43`) and then the role guard (`src/common/guards/roles.guard.ts:11-31`) as the handler declares them: never the role guard's TypeError; unguarded routes run without a principal; a failed authentication is 401; an admitted guarded request binds exactly the verified claims |
| Routes.KindsPartitionRoutes | src/auth/auth.controller.ts:53-54 | every route is exactly one of public, signed-in only, admin only or for members |
| Routes.PublicRoutesAdmitAll | src/auth/auth.controller.ts:30 | `/login`, `/register` and `/uuid` run for anyone with no principal |
| Routes.GuardedRoutesNeedToken | src/common/guards/auth.guard.ts:25-28 | every other route is 401 for a request without a verifying token |
| Routes.SignedInRoutesAdmitAnyPrincipal | src/blog/blog.controller.ts:63-64 | the category list and lookup admit any verified principal regardless of authority |
| Routes.AdminListDecision | src/auth/auth.controller.ts:53-54 | on `[ROLE_ADMIN]` the role guard allows exactly the authorities containing it |
| Routes.MemberListDecision | src/auth/auth.controller.ts:75-76 | on the two member lists the role guard allows exactly the authorities containing `ROLE_USER` or `ROLE_ADMIN` |
| Routes.AdminRoutesNeedAdmin | src/auth/auth.controller.ts:90-91 | the user administration routes and category creation and update admit a verified principal iff its authority contains `ROLE_ADMIN` |
| Routes.MemberRoutesNeedRole | src/users/user.controller.ts:15-16 | the profile, logout and user-controller routes admit a verified principal iff its authority contains `ROLE_USER` or `ROLE_ADMIN` |
| Routes.UserPrincipal | src/blog/blog.controller.ts:78-80 | a `ROLE_USER` principal is forbidden on every admin route and admitted on every member route |
| Routes.UserRoutesReturnPrincipal | src/users/user.controller.ts:17-19 | admitted on `/user/profile` or `/user/myinfo`, the handler's principal is exactly the verified claims |
| Routes.ApiProfileHasPrincipal | src/auth/auth.controller.ts:78-85 | behind its guards, `/api/profile` always has a principal, so its Unauthorized branch is dead |
| Routes.ApplyCookies | src/auth/auth.controller.ts:128-129 | cookie operations leave every cookie they do not name as it was |
| Routes.LoginSetsTokens | src/auth/auth.service.ts:147-159 | after login the browser holds the signed access and refresh tokens |
| Routes.LogoutClearsTokens | src/auth/auth.controller.ts:128-129 | after logout the browser holds neither token |
| Routes.LoginCookiesNeverAuthenticate | src/common/guards/auth.guard.ts:54 | the cookies login sets never satisfy the guard, which reads a different cookie name, so every guarded route is 401 |
| Routes.LogoutDoesNotRevoke | src/common/guards/auth.guard.ts:29-42 | after logout clears the stored login key, a token minted earlier is still admitted on member routes |

## Left out

- I/O becomes parameters or in-memory state. This covers bcrypt, JWT signing and verification (including expiry and the secret), uuid generation, the request's `referer`, and the TypeORM repositories and query builders. The `createdAt`/`updatedAt` timestamps are not modelled: rows are kept in insertion order.
- Logging and Swagger metadata are not modelled, because they do not affect results.
- Module wiring and the bootstrap are not modelled, and as written they do affect results. The model describes the controllers as if they were mounted and cookies were parsed. In the code:
  - `src/app.module.ts:39-41` imports only the user and auth modules, and the entity list at line 33 has no category entity, so no `/blog` route is mounted.
  - `src/main.ts:5-15` installs no cookie parser, so `request.cookies` is undefined and the authentication guard (`src/common/guards/auth.guard.ts:51-54`) rejects every guarded request.
  - Nothing in the wiring registers the response interceptor; it is modelled as a function.
- `UserDTO` conversion is not modelled. The DTO constructor (`src/auth/dto/user.dto.ts:20`) maps over `user.authorities`, which the entity does not have (it has `authority`), so as written it throws for every user. As a consequence, `getUserInfo` never returns a found user and `getUserList` fails on any non-empty page. AuthService.GetUserInfo and AuthService.GetUserList describe the intended result, the rows before conversion, not that failure.
- `UserResponseDTO` is imported by the auth controller and service but is not defined in `src/auth/dto/user.dto.ts`. AuthController.GetProfile assumes it holds exactly the id, username, nickname and email passed to it. The service has an identical `getProfile` (`src/auth/auth.service.ts:174-181`) that no route calls; AuthController.GetProfile stands for both.
- The refresh token is only issued; the code has no exchange for it. The code also has no revocation check, and failed logins are not logged.
- `src/common/guards/role-type.ts` and `src/common/result-type.ts` are not part of this model. Their values are taken to be `ROLE_USER`/`ROLE_ADMIN` and `SUCCESS`/`ERROR`.
- The `Roles` decorator imported by the user controller is not part of this model. It is taken to store the same `roles` metadata as the other decorator.
- `src/users/user.service.ts` is not modelled, and neither is the body of `/user/updateInfo`: it is a stub returning a constant. The route's guarding is modelled.
- Blog controller handlers forward their input to the service unchanged. The model therefore calls the `BlogService` methods directly.
- `/api/uuid` returns a random value, which is not modelled.
- The class-validator rules on DTOs and the global validation pipe are not modelled. Request fields are taken as given.
- The service reads three request fields that the DTO classes do not declare: `nickname` on `CreateUserDTO` (`src/auth/dto/user.dto.ts:31-50`, read at `src/auth/auth.service.ts:56-86`), and `username` and `authority` on `UpdateUserDTO` (`src/auth/dto/user.dto.ts:62-73`, read at `src/auth/auth.service.ts:200` and `:219`). Both classes declare `authorities` instead. As written, the global pipe (`src/main.ts:8-10`, whitelist with `forbidNonWhitelisted`) refuses a body that carries these fields with a 400. If they were missing, the service would get `undefined`, and TypeORM drops an `undefined` condition from a `where`. The nickname lookup would then match any row, so registration would fail whenever the table is non-empty. The username lookup in `updateUserInfo` would pick an arbitrary user and overwrite its email. AuthService.RegisterUser and AuthService.UpdateUserInfo assume the three fields arrive as the service reads them.
- Concurrent requests and the race between reading `MAX(sortOrder)` and inserting are not modelled. The model is sequential.
- AuthService.GetUserList: the defaults `page = 1` and `limit = 10` (`src/auth/auth.controller.ts:57-58`, `src/auth/auth.service.ts:29`) are not modelled; the model takes both numbers as given. A non-positive offset is treated as 0, and a non-positive limit as no limit. The model does not follow the database's handling of negative `skip`/`take` values.
- AuthService.FindByUsername: usernames match exactly. Database collation (case- and accent-insensitive matching) is not modelled. The same goes for nicknames: UserStore.IndexOfNickname and the nickname check in AuthService.RegisterUser match exactly, although the column declares `utf8mb4_general_ci` (`src/users/entity/user.entity.ts:18`). Under exact matching, the username consistency check in `updateUserInfo` can never fail, so it is not modelled.
- AuthService.UpdateUserInfo: an absent `authority` keeps the stored value. This stands for TypeORM skipping `undefined` columns. An absent `username` is not modelled: the username is a string.
- AuthService.Login: the log entry includes `connectUrl` and stores the login key as a string. The log entity declares no `connectUrl` column and types `loginkey` as a number (`src/users/entity/user.loginlog.ts:13-14`). With `synchronize: true` (`src/app.module.ts:34`) that number becomes an integer column. A strict-mode database rejects the uuid string, and the catch at `src/auth/auth.service.ts:167-169` then turns a valid login into a 500. By that point the rotated login key has already been saved (`:134`) and no cookie is set. The model assumes the log insert succeeds, so its success branch issues the cookies.
- Text.Upper: upper-cases ASCII letters only. Full Unicode case mapping is not modelled.
- JsValues.Spread: numbers are integers. Floating point and the string form of non-integer numbers are not modelled. A spread string gets one index key per code point, where JavaScript gives one per UTF-16 code unit. A character outside the Basic Multilingual Plane therefore gets one key instead of two, because a lone surrogate half is not a Dafny character.
- BlogService.SortBySortOrder: categories with equal sort orders keep their table order. The database leaves that order unspecified.
- AuthService.NewestFirst: rows are listed in reverse insertion order. `createdAt DESC` leaves rows created within the same timestamp in no defined order, and the model fixes one.
- BlogService.FindCategorySortOrder: the maximum is taken to arrive as a number. A driver that returned it as a string would make `max + 1` a string concatenation.

=== FILE: auth_controller.dfy ===
/**
 * `AuthController`: the login result mapping, logout, and the profile handler.
 * Which guards and roles each of its routes declares is in the `Routes` module.
 */
module AuthController {
  import opened Wrappers
  import opened Payloads
  import opened UserEntity
  import opened UserStore
  import opened AuthService

  const LogoutMessage := "로그아웃 완료"

  /** What `loginAccount` returns: the service's result on success, otherwise a 403 body
      carrying the service's message. */
  datatype LoginResponse =
    | Passed(login: LoginResult)
    | Denied(status: int, result: string, error: string)

  /** `UserResponseDTO`. */
  datatype UserResponse = UserResponse(id: int, username: string, nickname: string, email: string)

  /** `loginAccount`'s mapping of the service result. */
  function LoginResponseOf(login: LoginResult): (response: LoginResponse)
    ensures response.Passed? <==> login.result == Success
    ensures response.Passed? ==> response.login == login
    ensures response.Denied? ==> response == Denied(403, "ERROR", login.message)
  {
    if login.result == Success then Passed(login) else Denied(403, "ERROR", login.message)
  }

  /** `POST /api/login`: an unknown user or a failed password check is a 403 body naming the
      check, with no cookie and no change; a matching password passes the service's result
      through, with the store, log and cookies `login` leaves. */
  method LoginAccount(store: Store, input: LoginInput, referer: Option<string>, freshKey: string,
                      matches: (string, string) -> bool, hash: string -> string,
                      sign: (Claims, string) -> string)
    returns (response: LoginResponse, cookies: seq<CookieOp>)
    requires store.Valid()
    modifies store
    ensures store.Valid() && store.nextId == old(store.nextId)
    ensures response.Denied? ==>
      && cookies == [] && store.rows == old(store.rows) && store.loginLog == old(store.loginLog)
    ensures IndexOfUsername(old(store.rows), input.username).None? ==>
      response == Denied(403, "ERROR", UserNotFound)
    ensures IndexOfUsername(old(store.rows), input.username).Some? ==>
      var i := IndexOfUsername(old(store.rows), input.username).value;
      var row := old(store.rows)[i];
      && (!matches(input.password, row.password) ==> response == Denied(403, "ERROR", InvalidPassword))
      && (matches(input.password, row.password) ==>
            && response == Passed(LoginResult(input.username, Success, LoggedIn))
            && store.rows == old(store.rows)[i := row.(loginkey := freshKey)]
            && store.loginLog == old(store.loginLog) + [LoginLogEntry(row.username, freshKey, referer, Success)]
            && cookies == LoginCookies(row, freshKey, sign))
  {
    var login;
    login, cookies := Login(store, input, referer, freshKey, matches, hash, sign);
    response := LoginResponseOf(login);
  }

  /** `POST /api/logout`: the principal's stored login key becomes "" (a direct update, so no
      entity hook runs), and both token cookies are cleared. */
  method Logout(store: Store, user: Payload) returns (cookies: seq<CookieOp>, message: string)
    requires store.Valid()
    modifies store
    ensures store.Valid() && store.nextId == old(store.nextId) && store.loginLog == old(store.loginLog)
    ensures store.rows == WithLoginKey(old(store.rows), user.id, "")
    ensures cookies == [ClearCookie(AccessCookie), ClearCookie(RefreshCookie)]
    ensures message == LogoutMessage
  {
    store.UpdateLoginKey(user.id, "");
    cookies := [ClearCookie(AccessCookie), ClearCookie(RefreshCookie)];
    message := LogoutMessage;
  }

  /** Logout clears the login key of the principal's own row and of no other. */
  lemma {:induction false} LogoutOnlyPrincipal(rows: seq<UserRow>, i: nat)
    requires UniqueIds(rows) && i < |rows|
    ensures WithLoginKey(rows, rows[i].id, "") == rows[i := rows[i].(loginkey := "")]
  {
    var updated := WithLoginKey(rows, rows[i].id, "");
    forall k | 0 <= k < |rows| ensures updated[k] == rows[i := rows[i].(loginkey := "")][k] {
      if k < i {
        assert rows[k].id != rows[i].id;
      } else if k > i {
        assert rows[i].id != rows[k].id;
      }
    }
  }

  /** A principal whose id has no row (its account was deleted) changes nothing on logout. */
  lemma LogoutUnknownId(rows: seq<UserRow>, id: int)
    requires forall k :: 0 <= k < |rows| ==> rows[k].id != id
    ensures WithLoginKey(rows, id, "") == rows
  {
  }

  /** `GET /api/profile`: `None` (an `UnauthorizedException`) when no principal is bound,
      otherwise exactly the principal's id, username, nickname and email. */
  function GetProfile(user: Option<Payload>): (profile: Option<UserResponse>)
    ensures profile.None? <==> user.None?
    ensures profile.Some? ==>
      profile.value == UserResponse(user.value.id, user.value.username, user.value.nickname, user.value.email)
  {
    match user
    case None => None
    case Some(p) => Some(UserResponse(p.id, p.username, p.nickname, p.email))
  }
}

=== FILE: auth_guard.dfy ===
/**
 * `AuthGuard`: reads the access token from the request's `Authentication` cookie,
 * verifies it and binds its claims to `request.user`. Token verification (a JSON Web
 * Token check with the server's secret) is the parameter `verify`; `None` stands for
 * every way `verifyAsync` can reject.
 */
module AuthGuard {
  import opened Wrappers
  import opened Text
  import opened Payloads

  /** The cookie the guard reads the token from. */
  const AuthCookie := "Authentication"

  /** The scheme `extractTokenFromHeader` expects, matched case-sensitively. */
  const BearerScheme := "Bearer"

  /** The part of an incoming request the guards see. `cookies` is `None` when no cookie
      parser populated it; `user` is the principal a guard bound. */
  class Request {
    var cookies: Option<map<string, string>>
    var authorization: Option<string>
    var user: Option<Payload>

    /** A request as it arrives: nothing bound yet. */
    constructor (cookies: Option<map<string, string>>, authorization: Option<string>)
      ensures this.cookies == cookies && this.authorization == authorization && user == None
    {
      this.cookies := cookies;
      this.authorization := authorization;
      user := None;
    }
  }

  /** `extractTokenFromRequest`: the `Authentication` cookie, if the request has one. */
  function ExtractTokenFromRequest(cookies: Option<map<string, string>>): (token: Option<string>)
    ensures token.Some? <==> cookies.Some? && AuthCookie in cookies.value
    ensures token.Some? ==> token.value == cookies.value[AuthCookie]
  {
    if cookies.Some? && AuthCookie in cookies.value then Some(cookies.value[AuthCookie]) else None
  }

  /** `extractTokenFromHeader`: the header is split at single spaces; the second part is the
      token when the first is exactly `Bearer`. A token is returned exactly when the header starts with "Bearer ", and it is the run of
      characters after that space up to the next space (possibly empty). */
  function ExtractTokenFromHeader(authorization: Option<string>): (token: Option<string>)
    ensures token.Some? <==> authorization.Some? && |authorization.value| >= 7
                             && authorization.value[..7] == BearerScheme + " "
    ensures token.Some? ==> token.value == Split(authorization.value[7..], ' ')[0]
  {
    if authorization.None? then None
    else
      var parts := Split(authorization.value, ' ');
      HeaderParts(authorization.value);
      if parts[0] == BearerScheme && |parts| >= 2 then Some(parts[1]) else None
  }

  /** Helper: how the split of a header relates to its leading "Bearer ". */
  lemma {:induction false} HeaderParts(h: string)
    ensures var parts := Split(h, ' ');
      (parts[0] == BearerScheme && |parts| >= 2)
        <==> (|h| >= 7 && h[..7] == BearerScheme + " ")
    ensures var parts := Split(h, ' ');
      parts[0] == BearerScheme && |parts| >= 2 ==> parts[1] == Split(h[7..], ' ')[0]
  {
    var parts := Split(h, ' ');
    JoinSplit(h, ' ');
    if parts[0] == BearerScheme && |parts| >= 2 {
      assert h == parts[0] + [' '] + Join(parts[1..], ' ');
      assert h[..7] == BearerScheme + " ";
      assert h[7..] == Join(parts[1..], ' ');
      SplitJoin(parts[1..], ' ');
    }
    if |h| >= 7 && h[..7] == BearerScheme + " " {
      assert h == BearerScheme + [' '] + h[7..];
      assert ' ' !in BearerScheme;
      SplitAround(BearerScheme, h[7..], ' ');
    }
  }

  /** A bearer header carrying a token without spaces yields that token. */
  lemma {:induction false} BearerRoundTrip(token: string)
    requires ' ' !in token
    ensures ExtractTokenFromHeader(Some(BearerScheme + " " + token)) == Some(token)
  {
    var h := BearerScheme + " " + token;
    assert h[..7] == BearerScheme + " ";
    assert h[7..] == token;
    SplitNoSeparator(token, ' ');
  }

  /** The claims `canActivate` binds, or `None` when it throws `UnauthorizedException`:
      a missing or empty cookie, or a token the verifier rejects. */
  function Authenticate(cookies: Option<map<string, string>>, verify: string -> Option<Payload>)
    : (principal: Option<Payload>)
    ensures principal.Some? <==> cookies.Some? && AuthCookie in cookies.value
                                 && cookies.value[AuthCookie] != "" && verify(cookies.value[AuthCookie]).Some?
    ensures principal.Some? ==> principal == verify(cookies.value[AuthCookie])
  {
    match ExtractTokenFromRequest(cookies)
    case None => None
    case Some(token) => if token == "" then None else verify(token)
  }

  /** `canActivate`: true with the verified claims bound to `request.user`, or false
      (the `UnauthorizedException`) with `request.user` left as it was. */
  method CanActivate(request: Request, verify: string -> Option<Payload>) returns (ok: bool)
    modifies request`user
    ensures ok <==> Authenticate(request.cookies, verify).Some?
    ensures request.user == if ok then Authenticate(request.cookies, verify) else old(request.user)
  {
    var token := ExtractTokenFromRequest(request.cookies);
    if token.None? || token.value == "" {
      return false;
    }
    var payload := verify(token.value);
    if payload.None? {
      return false;
    }
    request.user := payload;
    return true;
  }

  /** Only the `Authentication` cookie matters: two requests that agree on it are treated alike,
      whatever else they carry. No user record or login key is consulted. */
  lemma OnlyTokenMatters(c1: map<string, string>, c2: map<string, string>, verify: string -> Option<Payload>)
    requires AuthCookie in c1 <==> AuthCookie in c2
    requires AuthCookie in c1 ==> c1[AuthCookie] == c2[AuthCookie]
    ensures Authenticate(Some(c1), verify) == Authenticate(Some(c2), verify)
  {
  }

  /** Without the cookie the guard rejects, whatever the verifier would say. */
  lemma NoCookieRejected(cookies: Option<map<string, string>>, verify: string -> Option<Payload>)
    requires cookies.None? || AuthCookie !in cookies.value
    ensures Authenticate(cookies, verify) == None
  {
  }
}

=== FILE: auth_service.dfy ===
/**
 * `AuthService`: registration, login with login-key rotation, and the account
 * administration operations, over the user store. `bcrypt.compare` is `matches`,
 * `bcrypt.hash` is `hash`, `uuidv4()` is the parameter `freshKey` and
 * `jwtService.sign(claims, { expiresIn })` is `sign(claims, expiresIn)`.
 */
module AuthService {
  import opened Wrappers
  import opened Payloads
  import opened UserEntity
  import opened UserStore

  const UsernameTaken := "이미 이용중인 아이디 입니다."
  const NicknameTaken := "이미 이용중인 닉네임 입니다."
  const Registered := "회원가입완료."
  const UserNotFound := "User not found"
  const InvalidPassword := "Invalid password for username"
  const LoggedIn := "로그인성공"
  const Updated := "정보수정완료"
  const Removed := "회원삭제완료"
  const RemoveNotFound := "아이디를 찾을 수 없습니다"

  const AccessCookie := "accessToken"
  const RefreshCookie := "refreshToken"
  const AccessTtl := "30m"
  const RefreshTtl := "1d"
  /** Cookie lifetimes in milliseconds: 30 minutes and 24 hours. */
  const AccessMaxAge := 1000 * 60 * 30
  const RefreshMaxAge := 1000 * 60 * 60 * 24

  /** `CreateUserDTO` as the service reads it. */
  datatype CreateUser = CreateUser(username: string, password: string, nickname: string, email: string)

  /** `RegisterResponseDTO`. */
  datatype RegisterResponse = RegisterResponse(username: string, nickname: string, result: ResultType, message: string)

  /** `LoginDTO`. */
  datatype LoginInput = LoginInput(username: string, password: string)

  /** `LoginResultDTO`. */
  datatype LoginResult = LoginResult(username: string, result: ResultType, message: string)

  /** `ResultDTO`. */
  datatype ResultDto = ResultDto(error: int, result: ResultType, message: string)

  /** The update request as the service reads it: `username`, and optional `email` and `authority`. */
  datatype UpdateUser = UpdateUser(username: string, email: Option<string>, authority: Option<string>)

  /** One page of the user list (`UserListDTO`), with the rows of the page. */
  datatype UserList = UserList(users: seq<UserRow>, total: int, page: int, limit: int)

  /** What gets signed: full access claims, or refresh claims holding only the id. */
  datatype Claims = AccessClaims(payload: Payload) | RefreshClaims(id: int)

  /** The options `res.cookie` is called with. */
  datatype CookieOptions = CookieOptions(httpOnly: bool, secure: bool, sameSite: string, maxAge: int)

  /** A change to the response's cookies: `res.cookie(...)` or `res.clearCookie(...)`. */
  datatype CookieOp = SetCookie(name: string, value: string, options: CookieOptions) | ClearCookie(name: string)

  /** The access claims for a user row and a login key. */
  function AccessPayload(row: UserRow, loginkey: string): (p: Payload)
    ensures p.id == row.id && p.username == row.username && p.nickname == row.nickname
    ensures p.email == row.email && p.loginkey == loginkey && p.authority == row.authority
  {
    Payload(row.id, row.username, row.nickname, row.email, loginkey, row.authority)
  }

  /** The two cookies a successful login sets: a 30-minute access token with the full claims
      and a one-day refresh token with only the id, both http-only, secure and same-site strict. */
  function LoginCookies(row: UserRow, loginkey: string, sign: (Claims, string) -> string): (cookies: seq<CookieOp>)
    ensures |cookies| == 2
    ensures cookies[0] == SetCookie(AccessCookie, sign(AccessClaims(AccessPayload(row, loginkey)), AccessTtl),
                                    CookieOptions(true, true, "strict", 1_800_000))
    ensures cookies[1] == SetCookie(RefreshCookie, sign(RefreshClaims(row.id), RefreshTtl),
                                    CookieOptions(true, true, "strict", 86_400_000))
  {
    [SetCookie(AccessCookie, sign(AccessClaims(AccessPayload(row, loginkey)), AccessTtl),
               CookieOptions(true, true, "strict", AccessMaxAge)),
     SetCookie(RefreshCookie, sign(RefreshClaims(row.id), RefreshTtl),
               CookieOptions(true, true, "strict", RefreshMaxAge))]
  }

  /** `findByUsername(username)`: the first user with exactly that username, if any. */
  method FindByUsername(store: Store, username: string) returns (user: Option<UserRow>)
    ensures user.Some? ==> user.value in store.rows && user.value.username == username
    ensures user.None? <==> forall j :: 0 <= j < |store.rows| ==> store.rows[j].username != username
  {
    var found := IndexOfUsername(store.rows, username);
    if found.None? {
      return None;
    }
    return Some(store.rows[found.value]);
  }

  /** `registerUser`: a taken username is reported first, then a taken nickname; otherwise
      exactly one `ROLE_USER` row is inserted, its password hashed by `@BeforeInsert`. */
  method RegisterUser(store: Store, input: CreateUser, hash: string -> string) returns (response: RegisterResponse)
    requires store.Valid()
    modifies store
    ensures store.Valid() && store.loginLog == old(store.loginLog)
    ensures IndexOfUsername(old(store.rows), input.username).Some? ==>
      && response == RegisterResponse(input.username, input.nickname, Error, UsernameTaken)
      && store.rows == old(store.rows) && store.nextId == old(store.nextId)
    ensures (IndexOfUsername(old(store.rows), input.username).None?
             && IndexOfNickname(old(store.rows), input.nickname).Some?) ==>
      && response == RegisterResponse(input.username, input.nickname, Error, NicknameTaken)
      && store.rows == old(store.rows) && store.nextId == old(store.nextId)
    ensures (IndexOfUsername(old(store.rows), input.username).None?
             && IndexOfNickname(old(store.rows), input.nickname).None?) ==>
      && response == RegisterResponse(input.username, input.nickname, Success, Registered)
      && store.nextId == old(store.nextId) + 1
      && store.rows == old(store.rows) + [UserRow(old(store.nextId), input.username,
                         StoredPassword(input.password, hash), input.nickname, input.email,
                         DefaultLoginKey, RoleUser)]
  {
    var byName := FindByUsername(store, input.username);
    if byName.Some? {
      return RegisterResponse(input.username, input.nickname, Error, UsernameTaken);
    }
    var byNick := IndexOfNickname(store.rows, input.nickname);
    if byNick.Some? {
      return RegisterResponse(input.username, input.nickname, Error, NicknameTaken);
    }
    var user := new User.Create(input.username, input.password, input.nickname, input.email, RoleUser);
    store.Insert(user, hash);
    return RegisterResponse(input.username, input.nickname, Success, Registered);
  }

  /** `login`: an unknown user or a failed password check changes nothing and sets no cookie;
      otherwise that user's login key becomes `freshKey` (its stored hash is kept), one SUCCESS
      entry is logged, and the two token cookies are issued. */
  method Login(store: Store, input: LoginInput, referer: Option<string>, freshKey: string,
               matches: (string, string) -> bool, hash: string -> string,
               sign: (Claims, string) -> string)
    returns (result: LoginResult, cookies: seq<CookieOp>)
    requires store.Valid()
    modifies store
    ensures store.Valid() && store.nextId == old(store.nextId)
    ensures IndexOfUsername(old(store.rows), input.username).None? ==>
      && result == LoginResult(input.username, Error, UserNotFound) && cookies == []
      && store.rows == old(store.rows) && store.loginLog == old(store.loginLog)
    ensures IndexOfUsername(old(store.rows), input.username).Some? ==>
      var i := IndexOfUsername(old(store.rows), input.username).value;
      var row := old(store.rows)[i];
      && (!matches(input.password, row.password) ==>
            && result == LoginResult(input.username, Error, InvalidPassword) && cookies == []
            && store.rows == old(store.rows) && store.loginLog == old(store.loginLog))
      && (matches(input.password, row.password) ==>
            && result == LoginResult(input.username, Success, LoggedIn)
            && store.rows == old(store.rows)[i := row.(loginkey := freshKey)]
            && store.loginLog == old(store.loginLog) + [LoginLogEntry(row.username, freshKey, referer, Success)]
            && cookies == LoginCookies(row, freshKey, sign))
  {
    var found := IndexOfUsername(store.rows, input.username);
    if found.None? {
      return LoginResult(input.username, Error, UserNotFound), [];
    }
    var i := found.value;
    var user := new User.Load(store.rows[i]);
    if !matches(input.password, user.password) {
      return LoginResult(input.username, Error, InvalidPassword), [];
    }
    user.loginkey := freshKey;
    store.Save(i, user, hash);
    store.AppendLog(LoginLogEntry(user.username, freshKey, referer, Success));
    cookies := LoginCookies(user.Row(), freshKey, sign);
    result := LoginResult(input.username, Success, LoggedIn);
  }

  /** The first row the page skips: `(page - 1) * limit`, a non-positive offset meaning none. */
  function PageOffset(page: int, limit: int): nat {
    if (page - 1) * limit > 0 then (page - 1) * limit else 0
  }

  /** The rows newest first (`order: { createdAt: 'DESC' }`: rows are kept in insertion order). */
  function NewestFirst(rows: seq<UserRow>): (r: seq<UserRow>)
    ensures |r| == |rows|
    ensures forall k :: 0 <= k < |rows| ==> r[k] == rows[|rows| - 1 - k]
    decreases |rows|
  {
    if |rows| == 0 then [] else [rows[|rows| - 1]] + NewestFirst(rows[..|rows| - 1])
  }

  /** `getUserList(page, limit)`: the total and the requested page of users, newest first;
      the page starts `(page - 1) * limit` rows in and holds at most `limit` rows (all the
      rest when `limit` is not positive). */
  method GetUserList(store: Store, page: int, limit: int) returns (list: UserList)
    ensures list.total == |store.rows| && list.page == page && list.limit == limit
    ensures var skip := PageOffset(page, limit);
      |list.users| == if skip >= |store.rows| then 0
                      else if limit <= 0 || |store.rows| - skip <= limit then |store.rows| - skip
                      else limit
    ensures forall k :: 0 <= k < |list.users| ==>
      list.users[k] == store.rows[|store.rows| - 1 - (PageOffset(page, limit) + k)]
  {
    var ordered := NewestFirst(store.rows);
    var skip := PageOffset(page, limit);
    var users: seq<UserRow>;
    if skip >= |ordered| {
      users := [];
    } else if limit <= 0 || |ordered| - skip <= limit {
      users := ordered[skip..];
    } else {
      users := ordered[skip..skip + limit];
    }
    return UserList(users, |store.rows|, page, limit);
  }

  /** `getUserInfo(username)`: the user's row, or `None` for the `InternalServerErrorException`
      thrown when no user has that username. */
  method GetUserInfo(store: Store, username: string) returns (user: Option<UserRow>)
    ensures user.None? <==> IndexOfUsername(store.rows, username).None?
    ensures user.Some? ==>
      user.value.username == username && user.value == store.rows[IndexOfUsername(store.rows, username).value]
  {
    var found := IndexOfUsername(store.rows, username);
    if found.None? {
      return None;
    }
    return Some(store.rows[found.value]);
  }

  /** `updateUserInfo`: an unknown username is error 1 and changes nothing. Otherwise the row
      is written only when a non-empty email different from the stored one is given; that write
      also carries the requested authority. The result is then error 0. */
  method UpdateUserInfo(store: Store, request: UpdateUser, hash: string -> string) returns (response: ResultDto)
    requires store.Valid()
    modifies store
    ensures store.Valid() && store.nextId == old(store.nextId) && store.loginLog == old(store.loginLog)
    ensures IndexOfUsername(old(store.rows), request.username).None? ==>
      && response == ResultDto(1, Error, "User with ID " + request.username + " not found")
      && store.rows == old(store.rows)
    ensures IndexOfUsername(old(store.rows), request.username).Some? ==>
      var i := IndexOfUsername(old(store.rows), request.username).value;
      var row := old(store.rows)[i];
      && response == ResultDto(0, Success, Updated)
      && store.rows == if request.email.Some? && request.email.value != "" && request.email.value != row.email
                       then old(store.rows)[i := row.(email := request.email.value,
                                                      authority := request.authority.GetOr(row.authority))]
                       else old(store.rows)
  {
    var found := IndexOfUsername(store.rows, request.username);
    if found.None? {
      return ResultDto(1, Error, "User with ID " + request.username + " not found");
    }
    var i := found.value;
    var user := new User.Load(store.rows[i]);
    // The lookup matched the username exactly, so the consistency check that follows it
    // in the source always passes. An absent authority is skipped by the save.
    user.authority := request.authority.GetOr(user.authority);
    if request.email.Some? && request.email.value != "" && request.email.value != user.email {
      user.email := request.email.value;
      store.Save(i, user, hash);
    }
    return ResultDto(0, Success, Updated);
  }

  /** `removeUserInfo`: an unknown username is error 1 and changes nothing; otherwise exactly
      that user's row is deleted and the result is error 0. */
  method RemoveUserInfo(store: Store, username: string) returns (response: ResultDto)
    requires store.Valid()
    modifies store
    ensures store.Valid() && store.nextId == old(store.nextId) && store.loginLog == old(store.loginLog)
    ensures IndexOfUsername(old(store.rows), username).None? ==>
      response == ResultDto(1, Error, RemoveNotFound) && store.rows == old(store.rows)
    ensures IndexOfUsername(old(store.rows), username).Some? ==>
      var i := IndexOfUsername(old(store.rows), username).value;
      response == ResultDto(0, Success, Removed) && store.rows == old(store.rows)[..i] + old(store.rows)[i + 1..]
  {
    var found := IndexOfUsername(store.rows, username);
    if found.None? {
      return ResultDto(1, Error, RemoveNotFound);
    }
    WithoutUniqueId(store.rows, found.value);
    store.Delete(store.rows[found.value].id);
    return ResultDto(0, Success, Removed);
  }
}

=== FILE: blog_service.dfy ===
/**
 * `BlogService`: the blog category table. New categories go last in sort order;
 * the list is returned in ascending sort order.
 */
module BlogService {
  import opened Wrappers

  const NotFoundCode := "1001"
  const NotFoundDetails := "존재하지 않는 카테고리 ID입니다"
  const ListMessage := "카테고리 조회성공"
  const InfoError := "정보조회오류"
  const Created := "카테고리 등록완료"
  const UpdateError := "수정오류"
  const UpdatedMessage := "수정완료"

  /** A `blog_category` row (timestamps and posts are not modelled). */
  datatype Category = Category(
    id: int,
    name: string,
    description: string,
    topImage: Option<string>,
    listImage: Option<string>,
    sortOrder: int,
    isPublic: bool)

  /** `CreateBlogCategory`. */
  datatype NewCategory = NewCategory(
    name: string, description: string, topImage: Option<string>, listImage: Option<string>, isPublic: bool)

  /** `UpdateBlogCategory`. */
  datatype CategoryUpdate = CategoryUpdate(
    id: int, name: string, description: string, topImage: Option<string>, listImage: Option<string>,
    sortOrder: int, isPublic: bool)

  /** `ErrorDto`. */
  datatype ErrorDetail = ErrorDetail(code: string, details: string)

  /** `ResultResponseDto`: `error` is `None` for `null`. */
  datatype ResultResponse = ResultResponse(result: bool, message: string, error: Option<ErrorDetail>)

  /** `getCategoryInfo`'s result: the row itself, or a failure envelope. */
  datatype CategoryInfo = Found(category: Category) | Missing(response: ResultResponse)

  /** `getCategoryList`'s envelope. */
  datatype CategoryList = CategoryList(result: bool, message: string, error: Option<ErrorDetail>, data: seq<Category>)

  /** The envelope for an id with no category. */
  function NotFound(message: string): ResultResponse {
    ResultResponse(false, message, Some(ErrorDetail(NotFoundCode, NotFoundDetails)))
  }

  /** `MAX(sortOrder)` over a non-empty table. */
  function MaxSortOrder(rows: seq<Category>): (m: int)
    requires |rows| > 0
    ensures forall k :: 0 <= k < |rows| ==> rows[k].sortOrder <= m
    ensures exists k :: 0 <= k < |rows| && rows[k].sortOrder == m
    decreases |rows|
  {
    if |rows| == 1 then rows[0].sortOrder
    else
      var rest := MaxSortOrder(rows[1..]);
      assert forall k :: 1 <= k < |rows| ==> rows[k] == rows[1..][k - 1];
      if rows[0].sortOrder >= rest then rows[0].sortOrder else rest
  }

  /** `findCastegorySortOrder`: one more than the largest sort order, or 1 when the maximum is
      falsy, that is when the table is empty (SQL `NULL`) or the maximum is 0. The result is
      above every existing sort order. */
  function FindCategorySortOrder(rows: seq<Category>): (next: int)
    ensures forall k :: 0 <= k < |rows| ==> rows[k].sortOrder < next
    ensures |rows| == 0 ==> next == 1
    ensures |rows| > 0 ==> next == (if MaxSortOrder(rows) == 0 then 1 else MaxSortOrder(rows) + 1)
  {
    if |rows| == 0 then 1
    else
      var max := MaxSortOrder(rows);
      if max != 0 then max + 1 else 1
  }

  /** Ascending by sort order. */
  ghost predicate SortedBySortOrder(s: seq<Category>) {
    forall i, j :: 0 <= i < j < |s| ==> s[i].sortOrder <= s[j].sortOrder
  }

  /** Places `c` before the first element with a sort order not below its own. */
  function InsertBySortOrder(c: Category, s: seq<Category>): (r: seq<Category>)
    ensures SortedBySortOrder(s) ==> SortedBySortOrder(r)
    ensures |r| == |s| + 1
    ensures r[0] == c || (|s| > 0 && r[0] == s[0])
    ensures multiset(r) == multiset(s) + multiset{c}
    decreases |s|
  {
    if |s| == 0 then [c]
    else if c.sortOrder <= s[0].sortOrder then [c] + s
    else
      assert s == [s[0]] + s[1..];
      [s[0]] + InsertBySortOrder(c, s[1..])
  }

  /** `ORDER BY sortOrder ASC` (rows with equal sort orders keep their table order). */
  function SortBySortOrder(rows: seq<Category>): (sorted: seq<Category>)
    ensures SortedBySortOrder(sorted)
    ensures multiset(sorted) == multiset(rows)
    decreases |rows|
  {
    if |rows| == 0 then []
    else
      assert rows == [rows[0]] + rows[1..];
      InsertBySortOrder(rows[0], SortBySortOrder(rows[1..]))
  }

  /** Helper: inserting below a larger last element keeps that element last. */
  lemma {:induction false} InsertBeforeLast(c: Category, s: seq<Category>, last: Category)
    requires c.sortOrder < last.sortOrder
    ensures InsertBySortOrder(c, s + [last]) == InsertBySortOrder(c, s) + [last]
    decreases |s|
  {
    if |s| == 0 {
      assert [last][1..] == [];
    } else {
      assert (s + [last])[0] == s[0];
      assert (s + [last])[1..] == s[1..] + [last];
      if c.sortOrder > s[0].sortOrder {
        InsertBeforeLast(c, s[1..], last);
        calc {
          InsertBySortOrder(c, s + [last]);
          [s[0]] + InsertBySortOrder(c, s[1..] + [last]);
          [s[0]] + (InsertBySortOrder(c, s[1..]) + [last]);
          ([s[0]] + InsertBySortOrder(c, s[1..])) + [last];
        }
      } else {
        assert [c] + (s + [last]) == ([c] + s) + [last];
      }
    }
  }

  /** A category with a sort order above all others is listed last, after the others in
      their usual order. */
  lemma {:induction false} SortAppendsLargest(rows: seq<Category>, c: Category)
    requires forall k :: 0 <= k < |rows| ==> rows[k].sortOrder < c.sortOrder
    ensures SortBySortOrder(rows + [c]) == SortBySortOrder(rows) + [c]
    decreases |rows|
  {
    if |rows| == 0 {
      assert [] + [c] == [c];
    } else {
      assert (rows + [c])[0] == rows[0];
      assert (rows + [c])[1..] == rows[1..] + [c];
      SortAppendsLargest(rows[1..], c);
      InsertBeforeLast(rows[0], SortBySortOrder(rows[1..]), c);
    }
  }

  /** The category repository's state. */
  class CategoryTable {
    var rows: seq<Category>
    var nextId: int

    /** Ids are unique and below the next id to be generated. */
    ghost predicate Valid()
      reads this
    {
      && (forall i, j :: 0 <= i < j < |rows| ==> rows[i].id != rows[j].id)
      && (forall i :: 0 <= i < |rows| ==> rows[i].id < nextId)
    }

    /** An empty table; generated ids start at 1. */
    constructor ()
      ensures Valid() && rows == [] && nextId == 1
    {
      rows := [];
      nextId := 1;
    }

    /** The category lookup by id. */
    function IndexOfId(id: int): (found: Option<nat>)
      reads this
      ensures found.Some? ==> found.value < |rows| && rows[found.value].id == id
      ensures found.None? <==> forall k :: 0 <= k < |rows| ==> rows[k].id != id
    {
      IndexOfIdIn(rows, id)
    }

    /** `getCategoryList`: every category, once, in ascending sort order, in a success envelope. */
    method GetCategoryList() returns (list: CategoryList)
      ensures list.result && list.message == ListMessage && list.error == None
      ensures SortedBySortOrder(list.data)
      ensures multiset(list.data) == multiset(rows)
    {
      list := CategoryList(true, ListMessage, None, SortBySortOrder(rows));
    }

    /** `getCategoryInfo(id)`: the row for a known id, else a failure envelope with code "1001". */
    method GetCategoryInfo(id: int) returns (info: CategoryInfo)
      ensures info.Found? <==> exists k :: 0 <= k < |rows| && rows[k].id == id
      ensures info.Found? ==> info.category in rows && info.category.id == id
      ensures info.Missing? ==> info.response == NotFound(InfoError)
    {
      var found := IndexOfId(id);
      if found.None? {
        return Missing(NotFound(InfoError));
      }
      return Found(rows[found.value]);
    }

    /** `createCategory`: inserts exactly one row with the request's fields, a new id and the
        next sort order, which is above every existing one. */
    method CreateCategory(input: NewCategory) returns (response: ResultResponse)
      requires Valid()
      modifies this
      ensures Valid() && nextId == old(nextId) + 1
      ensures rows == old(rows) + [Category(old(nextId), input.name, input.description, input.topImage,
                                            input.listImage, FindCategorySortOrder(old(rows)), input.isPublic)]
      ensures forall k :: 0 <= k < |old(rows)| ==> old(rows)[k].sortOrder < rows[|rows| - 1].sortOrder
      ensures response == ResultResponse(true, Created, None)
    {
      var sortOrder := FindCategorySortOrder(rows);
      rows := rows + [Category(nextId, input.name, input.description, input.topImage, input.listImage,
                               sortOrder, input.isPublic)];
      nextId := nextId + 1;
      response := ResultResponse(true, Created, None);
    }

    /** `updateCategory`: an unknown id is a "1001" failure and changes nothing; otherwise that
        row takes the request's fields (an absent image keeps the stored one) and no other row
        changes. */
    method UpdateCategory(request: CategoryUpdate) returns (response: ResultResponse)
      requires Valid()
      modifies this
      ensures Valid() && nextId == old(nextId)
      ensures old(IndexOfId(request.id)).None? ==> response == NotFound(UpdateError) && rows == old(rows)
      ensures old(IndexOfId(request.id)).Some? ==>
        var i := old(IndexOfId(request.id)).value;
        && response == ResultResponse(true, UpdatedMessage, None)
        && rows == old(rows)[i := Category(request.id, request.name, request.description,
                                            if request.topImage.Some? then request.topImage else old(rows)[i].topImage,
                                            if request.listImage.Some? then request.listImage else old(rows)[i].listImage,
                                            request.sortOrder, request.isPublic)]
    {
      var found := IndexOfId(request.id);
      if found.None? {
        return NotFound(UpdateError);
      }
      var i := found.value;
      var before := rows[i];
      rows := rows[i := Category(request.id, request.name, request.description,
                                 if request.topImage.Some? then request.topImage else before.topImage,
                                 if request.listImage.Some? then request.listImage else before.listImage,
                                 request.sortOrder, request.isPublic)];
      return ResultResponse(true, UpdatedMessage, None);
    }
  }

  /** The first row with id `id`. */
  function IndexOfIdIn(rows: seq<Category>, id: int): (found: Option<nat>)
    ensures found.Some? ==> found.value < |rows| && rows[found.value].id == id
    ensures found.Some? ==> forall k :: 0 <= k < found.value ==> rows[k].id != id
    ensures found.None? <==> forall k :: 0 <= k < |rows| ==> rows[k].id != id
    decreases |rows|
  {
    if |rows| == 0 then None
    else if rows[0].id == id then Some(0)
    else match IndexOfIdIn(rows[1..], id)
      case None => None
      case Some(k) => Some(k + 1)
  }
}

=== FILE: js_values.dfy ===
/**
 * JavaScript values as handlers and response helpers pass them around, with
 * the two pieces of JavaScript semantics the response layer relies on:
 * truthiness (`||`) and object spread (`...data`).
 */
module JsValues {

  /** A JavaScript value. Numbers are integers here. */
  datatype Value =
    | Undefined
    | Null
    | Bool(b: bool)
    | Num(n: int)
    | Str(s: string)
    | Arr(items: seq<Value>)
    | Obj(fields: map<string, Value>)

  /** The values `||` treats as true. */
  predicate Truthy(v: Value) {
    match v
    case Undefined => false
    case Null => false
    case Bool(b) => b
    case Num(n) => n != 0
    case Str(s) => s != ""
    case Arr(_) => true
    case Obj(_) => true
  }

  /** `v?.key`: an own field of an object, otherwise `undefined`. The response layer only
      reads `message` this way, which strings and arrays lack; their `length` is not
      modelled. */
  function Member(v: Value, key: string): Value {
    if v.Obj? && key in v.fields then v.fields[key] else Undefined
  }

  /** The decimal digit `d`. */
  function DigitChar(d: nat): (c: char)
    requires d < 10
    ensures '0' <= c <= '9' && c as int == '0' as int + d
  {
    ('0' as int + d) as char
  }

  /** The decimal numeral of `n`, as JavaScript writes an array index as a key. */
  function IndexKey(n: nat): (key: string)
    ensures |key| > 0 && '0' <= key[0] <= '9'
    ensures n >= 10 ==> |key| >= 2
    decreases n
  {
    if n < 10 then [DigitChar(n)] else IndexKey(n / 10) + [DigitChar(n % 10)]
  }

  /** Distinct indices have distinct numerals. */
  lemma {:induction false} IndexKeyInjective(a: nat, b: nat)
    requires IndexKey(a) == IndexKey(b)
    ensures a == b
    decreases a
  {
    if a >= 10 && b >= 10 {
      var ka, kb := IndexKey(a), IndexKey(b);
      assert ka[|ka| - 1] == kb[|kb| - 1];
      assert a % 10 == b % 10;
      assert ka[..|ka| - 1] == IndexKey(a / 10);
      assert kb[..|kb| - 1] == IndexKey(b / 10);
      IndexKeyInjective(a / 10, b / 10);
    }
  }

  /** The own properties `{...items}` yields for an array (or the code points of a string):
      one per index, keyed by its numeral. */
  function IndexEntries(items: seq<Value>): (m: map<string, Value>)
    ensures forall key :: key in m ==> |key| > 0 && '0' <= key[0] <= '9'
    ensures forall k :: 0 <= k < |items| ==> IndexKey(k) in m && m[IndexKey(k)] == items[k]
    ensures forall key :: key in m ==> IsIndexKeyBelow(key, |items|)
    decreases |items|
  {
    if |items| == 0 then map[]
    else
      var last := |items| - 1;
      var before := IndexEntries(items[..last]);
      EntriesStep(before, items);
      var after := before[IndexKey(last) := items[last]];
      KeysStep(before, last, after);
      after
  }

  /** Helper: adding the last index keeps every earlier index's entry. */
  lemma EntriesStep(before: map<string, Value>, items: seq<Value>)
    requires |items| > 0
    requires forall k :: 0 <= k < |items| - 1 ==> IndexKey(k) in before && before[IndexKey(k)] == items[k]
    ensures forall k :: 0 <= k < |items| ==>
      IndexKey(k) in before[IndexKey(|items| - 1) := items[|items| - 1]]
      && before[IndexKey(|items| - 1) := items[|items| - 1]][IndexKey(k)] == items[k]
  {
    var last := |items| - 1;
    forall k | 0 <= k < last ensures IndexKey(k) != IndexKey(last) {
      if IndexKey(k) == IndexKey(last) {
        IndexKeyInjective(k, last);
      }
    }
  }

  /** `key` is the numeral of an index below `n`. */
  ghost predicate IsIndexKeyBelow(key: string, n: nat) {
    exists k :: 0 <= k < n && key == IndexKey(k)
  }

  /** Helper: adding index `n` to the keys of indices below `n` gives the keys below `n + 1`. */
  lemma KeysStep(before: map<string, Value>, n: nat, after: map<string, Value>)
    requires forall key :: key in before ==> IsIndexKeyBelow(key, n)
    requires after.Keys == before.Keys + {IndexKey(n)}
    ensures forall key :: key in after ==> IsIndexKeyBelow(key, n + 1)
  {
    forall key | key in after ensures IsIndexKeyBelow(key, n + 1) {
      if key == IndexKey(n) {
        assert 0 <= n < n + 1 && key == IndexKey(n);
      } else {
        assert IsIndexKeyBelow(key, n);
        var k :| 0 <= k < n && key == IndexKey(k);
        assert 0 <= k < n + 1 && key == IndexKey(k);
      }
    }
  }

  /** The properties `...v` copies into an object literal: an object's own fields,
      the indices of an array or string, and nothing for any other value. */
  function Spread(v: Value): (m: map<string, Value>)
    ensures v.Obj? ==> m == v.fields
    ensures !v.Obj? ==> forall key :: key in m ==> |key| > 0 && '0' <= key[0] <= '9'
    ensures v.Arr? ==> forall k :: 0 <= k < |v.items| ==> IndexKey(k) in m && m[IndexKey(k)] == v.items[k]
    ensures v.Arr? ==> forall key :: key in m ==> IsIndexKeyBelow(key, |v.items|)
    ensures v.Str? ==> forall k :: 0 <= k < |v.s| ==> IndexKey(k) in m && m[IndexKey(k)] == Str([v.s[k]])
    ensures v.Str? ==> forall key :: key in m ==> IsIndexKeyBelow(key, |v.s|)
    ensures !(v.Obj? || v.Arr? || v.Str?) ==> m == map[]
  {
    match v
    case Obj(f) => f
    case Arr(items) => IndexEntries(items)
    case Str(s) => IndexEntries(seq(|s|, k requires 0 <= k < |s| => Str([s[k]])))
    case _ => map[]
  }

  /** Spreading a two-element array gives exactly the keys "0" and "1"; spreading a number
      gives nothing. */
  lemma {:induction false} SpreadPairAndNumber(a: Value, b: Value, n: int)
    ensures Spread(Arr([a, b])).Keys == {"0", "1"}
    ensures Spread(Arr([a, b]))["0"] == a && Spread(Arr([a, b]))["1"] == b
    ensures Spread(Num(n)) == map[]
  {
    var m := Spread(Arr([a, b]));
    assert IndexKey(0) == "0" && IndexKey(1) == "1";
    forall key | key in m ensures key == "0" || key == "1" {
      assert IsIndexKeyBelow(key, 2);
      var k :| 0 <= k < 2 && key == IndexKey(k);
    }
  }

  /** A name that does not start with a digit is never an index key, so a
      non-object value spreads nothing under it. */
  lemma SpreadNamedKey(v: Value, key: string)
    requires |key| > 0 && !('0' <= key[0] <= '9')
    ensures key in Spread(v) <==> v.Obj? && key in v.fields
    ensures key in Spread(v) ==> Spread(v)[key] == Member(v, key)
  {
  }
}

=== FILE: not_empty_string.dfy ===
/**
 * The `validate` function of the `IsNotEmptyString(min, max)` class-validator decorator:
 * a string whose trimmed form is non-empty and whose JavaScript `length` (UTF-16 code
 * units) lies between `min` and `max`.
 */
module NotEmptyString {
  import opened Text
  import opened JsValues

  /** `validate(value, { constraints: [min, max] })`. */
  function Validate(value: Value, min: int, max: int): (ok: bool)
    ensures ok ==> value.Str? && !AllSpace(value.s)
    ensures ok <==> value.Str? && Trim(value.s) != "" && min <= Utf16Length(Trim(value.s)) <= max
  {
    if !value.Str? then false
    else
      var trimmed := Trim(value.s);
      if trimmed == "" then false
      else
        TrimNonEmptyNotAllSpace(value.s);
        min <= Utf16Length(trimmed) <= max
  }

  /** Helper: a string that trims to something non-empty is not all white space. */
  lemma TrimNonEmptyNotAllSpace(s: string)
    requires Trim(s) != ""
    ensures !AllSpace(s)
  {
    if AllSpace(s) {
      TrimAllSpace(s);
    }
  }

  /** Non-strings are rejected whatever the bounds. */
  lemma NonStringRejected(value: Value, min: int, max: int)
    requires !value.Str?
    ensures !Validate(value, min, max)
  {
  }

  /** The empty string and every all-white-space string are rejected. */
  lemma {:induction false} BlankRejected(s: string, min: int, max: int)
    requires AllSpace(s)
    ensures !Validate(Str(s), min, max)
  {
    TrimAllSpace(s);
  }

  /** Leading and trailing white space never change the verdict. */
  lemma {:induction false} SurroundingSpaceIgnored(s: string, min: int, max: int)
    ensures Validate(Str(s), min, max) == Validate(Str(Trim(s)), min, max)
  {
    TrimIdempotent(s);
  }

  /** Bounds with `min > max` admit nothing. */
  lemma EmptyRangeRejectsAll(value: Value, min: int, max: int)
    requires min > max
    ensures !Validate(value, min, max)
  {
  }

  /** On text inside the Basic Multilingual Plane the bounds count characters. */
  lemma {:induction false} BmpCountsCharacters(s: string, min: int, max: int)
    requires forall k :: 0 <= k < |s| ==> s[k] as int < 0x10000
    ensures Validate(Str(s), min, max) <==> Trim(s) != "" && min <= |Trim(s)| <= max
  {
    var i, j :| 0 <= i <= j <= |s| && Trim(s) == s[i..j] && AllSpace(s[..i]) && AllSpace(s[j..]);
    Utf16LengthBmpSlice(s, i, j);
  }

  /** A code point outside the Basic Multilingual Plane counts twice: one emoji meets a
      minimum of 2 and fails a maximum of 1. */
  lemma {:induction false} AstralCountsTwice()
    ensures Validate(Str("\U{1F600}"), 2, 5)
    ensures !Validate(Str("\U{1F600}"), 1, 1)
  {
    var s := "\U{1F600}";
    assert s[0] == '\U{1F600}' && |s| == 1;
    assert !IsSpace(s[0]);
    assert TrimStart(s) == s;
    assert TrimEnd(s) == s;
    assert Trim(s) == s;
    assert s[1..] == "";
    assert Utf16Length(s) == Utf16Units(s[0]) + Utf16Length("");
    assert Utf16Length(s) == 2;
  }
}

=== FILE: payload.dfy ===
/** The claims record signed into an access token and bound to `request.user` (`Payload`). */
module Payloads {

  /** Role names of `RoleType`; the enum's string values are its member names. */
  const RoleUser := "ROLE_USER"
  const RoleAdmin := "ROLE_ADMIN"

  /** An access token's claims. An `authority` that is missing or empty is `""`. */
  datatype Payload = Payload(
    id: int,
    username: string,
    nickname: string,
    email: string,
    loginkey: string,
    authority: string)
}

=== FILE: response_interceptor.dfy ===
/**
 * The mapping step of `ResponseInterceptor.intercept`: every handler result
 * `data` becomes an object with `result: true`, the data's message or a default one, and
 * `error: null`, followed by a spread of `data` itself.
 */
module ResponseInterceptor {
  import opened JsValues
  import opened ResponseUtil

  const DefaultMessage := "요청이 성공적으로 처리되었습니다."

  /** The three properties the interceptor writes before spreading `data`. */
  function Defaults(data: Value): map<string, Value> {
    map["result" := Bool(true),
        "message" := (if Truthy(Member(data, "message")) then Member(data, "message") else Str(DefaultMessage)),
        "error" := Null]
  }

  /** The envelope merge. The spread comes last, so every property of `data` wins
      over the defaults, and the defaults fill in only what `data` lacks. */
  function Intercept(data: Value): (r: map<string, Value>)
    ensures r.Keys == {"result", "message", "error"} + Spread(data).Keys
    ensures forall key :: key in Spread(data) ==> r[key] == Spread(data)[key]
    ensures "result" !in Spread(data) ==> r["result"] == Bool(true)
    ensures "error" !in Spread(data) ==> r["error"] == Null
  {
    Defaults(data) + Spread(data)
  }

  /** The message is the handler's own `message` whenever it has one, even a falsy one
      (the spread puts it back); the default appears exactly when it has none. */
  lemma InterceptMessage(data: Value)
    ensures Intercept(data)["message"]
         == if "message" in Spread(data) then Spread(data)["message"] else Str(DefaultMessage)
  {
    SpreadNamedKey(data, "message");
  }

  /** `null` and `undefined` results become exactly the three defaults. */
  lemma InterceptNullish(data: Value)
    requires data == Null || data == Undefined
    ensures Intercept(data)
         == map["result" := Bool(true), "message" := Str(DefaultMessage), "error" := Null]
  {
  }

  /** An object that already has `result`, `message` and `error` passes through unchanged,
      so a `false` result stays `false`. */
  lemma {:induction false} EnvelopeFixedPoint(f: map<string, Value>)
    requires "result" in f && "message" in f && "error" in f
    ensures Intercept(Obj(f)) == f
  {
    var r := Intercept(Obj(f));
    assert r.Keys == f.Keys;
    assert forall key :: key in f ==> r[key] == f[key];
  }

  /** Intercepting twice is intercepting once. */
  lemma {:induction false} InterceptIdempotent(data: Value)
    ensures Intercept(Obj(Intercept(data))) == Intercept(data)
  {
    EnvelopeFixedPoint(Intercept(data));
  }

  /** The envelopes of the response helpers are left as they are by the interceptor. */
  lemma {:induction false} HelpersPassThrough(data: Value, message: Value, errMessage: string, code: string, details: string,
                                              total: Value, page: Value, limit: Value)
    ensures Intercept(Obj(SuccessResponse(data, message))) == SuccessResponse(data, message)
    ensures Intercept(Obj(PaginatedResponse(data, total, page, limit, message)))
         == PaginatedResponse(data, total, page, limit, message)
    ensures Intercept(Obj(ErrorResponse(errMessage, code, details))) == ErrorResponse(errMessage, code, details)
  {
    EnvelopeFixedPoint(SuccessResponse(data, message));
    EnvelopeFixedPoint(PaginatedResponse(data, total, page, limit, message));
    EnvelopeFixedPoint(ErrorResponse(errMessage, code, details));
  }

  /** A data-only envelope gains the three defaults. */
  lemma {:induction false} DataOnlyGainsDefaults(data: Value)
    ensures Intercept(Obj(DataOnlyResponse(data)))
         == map["result" := Bool(true), "message" := Str(DefaultMessage), "error" := Null, "data" := data]
  {
    var r := Intercept(Obj(DataOnlyResponse(data)));
    assert Member(Obj(DataOnlyResponse(data)), "message") == Undefined;
    assert r.Keys == {"result", "message", "error", "data"};
  }
}

=== FILE: response_util.dfy ===
/**
 * The response envelope builders of `common/utils/response.util.ts`.
 * Each returns the object literal it builds, as a map from property name to value;
 * an optional argument left `undefined` takes its declared default.
 */
module ResponseUtil {
  import opened JsValues

  const SuccessMessage := "성공"
  const ListMessage := "목록 조회 성공"

  /** A defaulted parameter: JavaScript substitutes the default for `undefined`. */
  function Defaulted(arg: Value, default: string): (v: Value)
    ensures arg != Undefined ==> v == arg
    ensures arg == Undefined ==> v == Str(default)
  {
    if arg == Undefined then Str(default) else arg
  }

  /** `successResponse(data, message = '성공')`. */
  function SuccessResponse(data: Value, message: Value): (r: map<string, Value>)
    ensures r.Keys == {"result", "message", "error", "data"}
    ensures r["result"] == Bool(true) && r["error"] == Null && r["data"] == data
    ensures r["message"] == Defaulted(message, SuccessMessage)
  {
    map["result" := Bool(true), "message" := Defaulted(message, SuccessMessage),
        "error" := Null, "data" := data]
  }

  /** `paginatedResponse(data, total, page, limit, message = '목록 조회 성공')`. */
  function PaginatedResponse(data: Value, total: Value, page: Value, limit: Value, message: Value)
    : (r: map<string, Value>)
    ensures r.Keys == {"result", "message", "error", "data", "total", "page", "limit"}
    ensures r["result"] == Bool(true) && r["error"] == Null
    ensures r["data"] == data && r["total"] == total && r["page"] == page && r["limit"] == limit
    ensures r["message"] == Defaulted(message, ListMessage)
  {
    map["result" := Bool(true), "message" := Defaulted(message, ListMessage), "error" := Null,
        "data" := data, "total" := total, "page" := page, "limit" := limit]
  }

  /** `errorResponse(message, code, details)`: a failure envelope, with no `data`. */
  function ErrorResponse(message: string, code: string, details: string): (r: map<string, Value>)
    ensures r.Keys == {"result", "message", "error"} && "data" !in r
    ensures r["result"] == Bool(false) && r["message"] == Str(message)
    ensures r["error"] == Obj(map["code" := Str(code), "details" := Str(details)])
  {
    map["result" := Bool(false), "message" := Str(message),
        "error" := Obj(map["code" := Str(code), "details" := Str(details)])]
  }

  /** `dataOnlyResponse(data)`: an object whose only property is `data`. */
  function DataOnlyResponse(data: Value): (r: map<string, Value>)
    ensures r.Keys == {"data"} && r["data"] == data
  {
    map["data" := data]
  }
}

=== FILE: roles_guard.dfy ===
/**
 * `RolesGuard.canActivate` and `matchRoles`: the role check that runs after
 * authentication on routes that declare `@Roles(...)`.
 */
module RolesGuard {
  import opened Wrappers
  import opened Text
  import opened Payloads

  /** What the handler's `roles` metadata holds: nothing, a list of role names,
      or some other (truthy, non-array) value. */
  datatype RolesMetadata = NoRoles | Declared(roles: seq<string>) | NotAList

  /** The guard's outcomes: pass, `ForbiddenException`, or the `TypeError` of
      reading `user.authority` when no principal is bound. */
  datatype Decision = Allow | Forbidden | TypeError

  /** A declared role as compared: trimmed, then upper-cased. */
  function Normalize(role: string): string {
    Upper(Trim(role))
  }

  /** The declared roles, each normalised, in their order. */
  function NormalizeAll(roles: seq<string>): (normalized: seq<string>)
    ensures |normalized| == |roles|
    ensures forall k :: 0 <= k < |roles| ==> normalized[k] == Normalize(roles[k])
  {
    seq(|roles|, k requires 0 <= k < |roles| => Normalize(roles[k]))
  }

  /** Whether some of the normalised roles occurs as a substring of the authority. */
  predicate SomeIncluded(normalized: seq<string>, authority: string)
    decreases |normalized|
  {
    |normalized| > 0 && (Includes(authority, normalized[0]) || SomeIncluded(normalized[1..], authority))
  }

  /** `SomeIncluded` holds exactly when some role of the list occurs in the authority. */
  lemma {:induction false} SomeIncludedIff(normalized: seq<string>, authority: string)
    ensures SomeIncluded(normalized, authority)
        <==> exists i :: 0 <= i < |normalized| && Includes(authority, normalized[i])
    decreases |normalized|
  {
    if |normalized| > 0 {
      SomeIncludedIff(normalized[1..], authority);
      if i :| 0 <= i < |normalized| && Includes(authority, normalized[i]) {
        if i > 0 {
          assert normalized[1..][i - 1] == normalized[i];
        }
      }
      if SomeIncluded(normalized[1..], authority) {
        var j :| 0 <= j < |normalized| - 1 && Includes(authority, normalized[1..][j]);
        assert normalized[j + 1] == normalized[1..][j];
      }
    }
  }

  /** `matchRoles(roles, authority)`: false unless the metadata is a list and the
      authority is non-empty; otherwise some normalised role is a substring of the
      authority, which is itself compared as it is. */
  predicate MatchRoles(meta: RolesMetadata, authority: string) {
    meta.Declared? && authority != "" && SomeIncluded(NormalizeAll(meta.roles), authority)
  }

  /** `canActivate`: no metadata lets everyone through, even with no principal bound;
      otherwise the bound principal must match. */
  function CanActivate(meta: RolesMetadata, user: Option<Payload>): (d: Decision)
    ensures meta.NoRoles? ==> d == Allow
    ensures !meta.NoRoles? && user.None? ==> d == TypeError
    ensures !meta.NoRoles? && user.Some? && d != Allow ==> d == Forbidden
    ensures d == Allow <==> meta.NoRoles? || (user.Some? && meta.Declared? && user.value.authority != ""
                            && exists i :: 0 <= i < |meta.roles| && Includes(user.value.authority, Normalize(meta.roles[i])))
  {
    if meta.NoRoles? then Allow
    else if user.None? then TypeError
    else match meta
      case NotAList => Forbidden
      case Declared(roles) =>
        SomeIncludedIff(NormalizeAll(roles), user.value.authority);
        if MatchRoles(meta, user.value.authority) then Allow else Forbidden
  }

  /** Helper: with a principal bound, a declared list is decided by `matchRoles` alone. */
  lemma DeclaredDecision(roles: seq<string>, p: Payload)
    ensures CanActivate(Declared(roles), Some(p))
            == (if p.authority != "" && SomeIncluded(NormalizeAll(roles), p.authority) then Allow else Forbidden)
  {
  }

  /** A present but empty role list denies every principal. */
  lemma EmptyListDenies(p: Payload)
    ensures CanActivate(Declared([]), Some(p)) == Forbidden
  {
  }

  /** Metadata that is not a list, or a principal without authority, is forbidden. */
  lemma MalformedDenies(meta: RolesMetadata, p: Payload)
    requires meta.NotAList? || (meta.Declared? && p.authority == "")
    ensures CanActivate(meta, Some(p)) == Forbidden
  {
  }

  /** A role name with no surrounding white space and no lower-case letter is its own
      normal form. */
  lemma {:induction false} NormalizeCanonical(role: string)
    requires role == "" || (!IsSpace(role[0]) && !IsSpace(role[|role| - 1]))
    requires forall k :: 0 <= k < |role| ==> !('a' <= role[k] <= 'z')
    ensures Normalize(role) == role
  {
    assert TrimStart(role) == role;
    assert TrimEnd(role) == role;
    assert Upper(role) == role;
  }

  /** Declared roles are compared case-insensitively and without surrounding white space:
      padding on either side and lower-casing a role do not change its normal form. */
  lemma {:induction false} NormalizeUpperAndPadding(pre: string, role: string, post: string)
    requires AllSpace(pre) && AllSpace(post)
    requires role == "" || (!IsSpace(role[0]) && !IsSpace(role[|role| - 1]))
    ensures Normalize(pre + role + post) == Upper(role)
  {
    PaddedTrim(pre, role, post);
  }

  /** Helper: trimming strips exactly the padding. */
  lemma {:induction false} PaddedTrim(pre: string, role: string, post: string)
    requires AllSpace(pre) && AllSpace(post)
    requires role == "" || (!IsSpace(role[0]) && !IsSpace(role[|role| - 1]))
    ensures Trim(pre + role + post) == role
  {
    assert pre + role + post == pre + (role + post);
    TrimStartPrefix(pre, role + post);
    if role == "" {
      assert role + post == post;
      TrimAllSpace(post);
    } else {
      assert TrimStart(role + post) == role + post;
      TrimEndSuffix(role, post);
    }
  }

  /** Helper: an all-space prefix is dropped by `TrimStart`, stopping at a non-space. */
  lemma {:induction false} TrimStartPrefix(pad: string, rest: string)
    requires AllSpace(pad)
    requires rest == "" || !IsSpace(rest[0]) || AllSpace(rest)
    ensures TrimStart(pad + rest) == TrimStart(rest)
    decreases |pad|
  {
    if |pad| > 0 {
      assert (pad + rest)[1..] == pad[1..] + rest;
      TrimStartPrefix(pad[1..], rest);
    } else {
      assert pad + rest == rest;
    }
  }

  /** Helper: an all-space suffix is dropped by `TrimEnd`. */
  lemma {:induction false} TrimEndSuffix(body: string, pad: string)
    requires AllSpace(pad)
    requires body == "" || !IsSpace(body[|body| - 1])
    ensures TrimEnd(body + pad) == body
    decreases |pad|
  {
    if |pad| > 0 {
      assert (body + pad)[..|body + pad| - 1] == body + pad[..|pad| - 1];
      TrimEndSuffix(body, pad[..|pad| - 1]);
    } else {
      assert body + pad == body;
    }
  }

  /** The principal's authority is not normalised: an authority that differs from a
      declared role of the same length (for instance only in case) does not match it. */
  lemma {:induction false} AuthorityNotNormalized(role: string, authority: string)
    requires |authority| == |Normalize(role)| && authority != Normalize(role)
    ensures CanActivate(Declared([role]), Some(Payload(0, "", "", "", "", authority))) != Allow
  {
    IncludesSameLength(authority, Normalize(role));
    assert [role][1..] == [];
  }

  /** A blank declared role normalises to "" and so admits every principal with an authority. */
  lemma {:induction false} BlankRoleAdmitsAll(pad: string, p: Payload)
    requires AllSpace(pad) && p.authority != ""
    ensures CanActivate(Declared([pad]), Some(p)) == Allow
  {
    TrimAllSpace(pad);
    IncludesEmpty(p.authority);
  }

  /** The two role names are their own normal forms, and so are the role lists routes declare. */
  lemma RoleNamesCanonical()
    ensures Normalize(RoleAdmin) == RoleAdmin && Normalize(RoleUser) == RoleUser
    ensures NormalizeAll([RoleAdmin]) == [RoleAdmin]
    ensures NormalizeAll([RoleAdmin, RoleUser]) == [RoleAdmin, RoleUser]
    ensures NormalizeAll([RoleUser, RoleAdmin]) == [RoleUser, RoleAdmin]
  {
    RoleNameCanonical(RoleAdmin);
    RoleNameCanonical(RoleUser);
  }

  /** Helper: one role name is its own normal form. */
  lemma RoleNameCanonical(name: string)
    requires name == RoleAdmin || name == RoleUser
    ensures Normalize(name) == name
  {
    RoleNameShape(name);
    NormalizeCanonical(name);
  }

  /** Helper: the role names start and end with a letter and have no lower-case letter. */
  lemma RoleNameShape(name: string)
    requires name == RoleAdmin || name == RoleUser
    ensures name != "" && !IsSpace(name[0]) && !IsSpace(name[|name| - 1])
    ensures forall k :: 0 <= k < |name| ==> !('a' <= name[k] <= 'z')
  {
  }

  /** `ROLE_USER` is denied on `[ROLE_ADMIN]` and allowed on `[ROLE_ADMIN, ROLE_USER]`. */
  lemma {:induction false} UserAgainstAdmin(p: Payload)
    requires p.authority == RoleUser
    ensures CanActivate(Declared([RoleAdmin]), Some(p)) == Forbidden
    ensures CanActivate(Declared([RoleAdmin, RoleUser]), Some(p)) == Allow
  {
    RoleNamesCanonical();
    DeclaredDecision([RoleAdmin], p);
    DeclaredDecision([RoleAdmin, RoleUser], p);
    IncludesLonger(RoleUser, RoleAdmin);
    IncludesSameLength(RoleUser, RoleUser);
    assert !SomeIncluded([RoleAdmin], p.authority) by {
      assert [RoleAdmin][1..] == [];
    }
    assert SomeIncluded([RoleAdmin, RoleUser], p.authority) by {
      assert [RoleAdmin, RoleUser][1..] == [RoleUser];
    }
  }
}

=== FILE: routes.dfy ===
/**
 * The routes of the `api`, `blog` and `user` controllers with the guards and roles each
 * declares, and what the two guards together decide for a request. `@UseGuards(AuthGuard,
 * RolesGuard)` runs the authentication guard first, so the role guard only ever sees a
 * request whose principal is bound.
 */
module Routes {
  import opened Wrappers
  import opened Text
  import opened Payloads
  import AuthGuard
  import RolesGuard
  import opened UserEntity
  import opened UserStore
  import opened AuthService
  import AuthController

  /** Every handler of the three controllers. */
  datatype Route =
    | ApiLogin | ApiUsers | ApiRegister | ApiProfile | ApiUserInfo | ApiUserUpdate
    | ApiUserDelete | ApiLogout | ApiUuid
    | BlogCategoryList | BlogCategoryCreate | BlogCategoryInfo | BlogCategoryUpdate
    | UserProfile | UserMyInfo | UserUpdateInfo

  /** The route's path. Category creation (`POST`) and update (`PUT`) share one path. */
  function Path(route: Route): string {
    match route
    case ApiLogin => "/api/login"
    case ApiUsers => "/api/users"
    case ApiRegister => "/api/register"
    case ApiProfile => "/api/profile"
    case ApiUserInfo => "/api/user/:username"
    case ApiUserUpdate => "/api/user/update"
    case ApiUserDelete => "/api/user/delete/:username"
    case ApiLogout => "/api/logout"
    case ApiUuid => "/api/uuid"
    case BlogCategoryList => "/blog/categorys"
    case BlogCategoryCreate => "/blog/category"
    case BlogCategoryInfo => "/blog/category/:id"
    case BlogCategoryUpdate => "/blog/category"
    case UserProfile => "/user/profile"
    case UserMyInfo => "/user/myinfo"
    case UserUpdateInfo => "/user/updateInfo"
  }

  /** Whether the handler lists `AuthGuard` in `@UseGuards`. */
  predicate UsesAuthGuard(route: Route) {
    !(route.ApiLogin? || route.ApiRegister? || route.ApiUuid?)
  }

  /** Whether the handler lists `RolesGuard` in `@UseGuards`. */
  predicate UsesRolesGuard(route: Route) {
    UsesAuthGuard(route) && !(route.BlogCategoryList? || route.BlogCategoryInfo?)
  }

  /** The `@Roles(...)` list of the handler, `None` where it declares none. */
  function DeclaredRoles(route: Route): (roles: Option<seq<string>>)
    ensures roles.Some? <==> UsesRolesGuard(route)
  {
    match route
    case ApiUsers => Some([RoleAdmin])
    case ApiProfile => Some([RoleAdmin, RoleUser])
    case ApiUserInfo => Some([RoleAdmin])
    case ApiUserUpdate => Some([RoleAdmin])
    case ApiUserDelete => Some([RoleAdmin])
    case ApiLogout => Some([RoleUser, RoleAdmin])
    case BlogCategoryCreate => Some([RoleAdmin])
    case BlogCategoryUpdate => Some([RoleAdmin])
    case UserProfile => Some([RoleUser, RoleAdmin])
    case UserMyInfo => Some([RoleUser, RoleAdmin])
    case UserUpdateInfo => Some([RoleUser, RoleAdmin])
    case _ => None
  }

  /** The `roles` metadata the role guard reads for the handler. */
  function Metadata(route: Route): RolesGuard.RolesMetadata {
    match DeclaredRoles(route)
    case None => RolesGuard.NoRoles
    case Some(roles) => RolesGuard.Declared(roles)
  }

  /** What happens to a request before its handler runs. */
  datatype Admission =
    | Admitted(user: Option<Payload>)   // the handler runs with this `request.user`
    | Unauthorized                       // 401 from the authentication guard
    | Forbidden                          // 403 from the role guard
    | InternalError                      // the role guard dereferencing a missing principal

  /** The guards of `route`, run in their declared order on a request carrying `cookies`. */
  function Admit(route: Route, cookies: Option<map<string, string>>, verify: string -> Option<Payload>)
    : (a: Admission)
    ensures !a.InternalError?
    ensures !UsesAuthGuard(route) ==> a == Admitted(None)
    ensures UsesAuthGuard(route) && AuthGuard.Authenticate(cookies, verify).None? ==> a == Unauthorized
    ensures a.Admitted? && UsesAuthGuard(route) ==> a.user == AuthGuard.Authenticate(cookies, verify) && a.user.Some?
  {
    var user := if UsesAuthGuard(route) then AuthGuard.Authenticate(cookies, verify) else None;
    if UsesAuthGuard(route) && user.None? then Unauthorized
    else if !UsesRolesGuard(route) then Admitted(user)
    else match RolesGuard.CanActivate(Metadata(route), user)
      case Allow => Admitted(user)
      case Forbidden => Forbidden
      case TypeError => InternalError
  }

  /** The routes that admit `ROLE_ADMIN` only. */
  predicate AdminOnly(route: Route) {
    route in {ApiUsers, ApiUserInfo, ApiUserUpdate, ApiUserDelete, BlogCategoryCreate, BlogCategoryUpdate}
  }

  /** The routes that admit `ROLE_USER` or `ROLE_ADMIN`. */
  predicate ForMembers(route: Route) {
    route in {ApiProfile, ApiLogout, UserProfile, UserMyInfo, UserUpdateInfo}
  }

  /** The routes with no guard at all. */
  predicate Public(route: Route) {
    route in {ApiLogin, ApiRegister, ApiUuid}
  }

  /** The routes that only need a verified token. */
  predicate SignedInOnly(route: Route) {
    route in {BlogCategoryList, BlogCategoryInfo}
  }

  /** The four kinds cover every route, and each route is of one kind. */
  lemma KindsPartitionRoutes(route: Route)
    ensures Public(route) || SignedInOnly(route) || AdminOnly(route) || ForMembers(route)
    ensures !(Public(route) && SignedInOnly(route)) && !(Public(route) && AdminOnly(route))
    ensures !(Public(route) && ForMembers(route)) && !(SignedInOnly(route) && AdminOnly(route))
    ensures !(SignedInOnly(route) && ForMembers(route)) && !(AdminOnly(route) && ForMembers(route))
  {
  }

  /** Helper: the role check over a one-role list is that role's check. */
  lemma {:induction false} SomeIncludedSingle(a: string, authority: string)
    ensures RolesGuard.SomeIncluded([a], authority) == Includes(authority, a)
  {
    assert [a][1..] == [];
    assert !RolesGuard.SomeIncluded([], authority);
  }

  /** Helper: the role check over a two-role list is the check of either role. */
  lemma {:induction false} SomeIncludedPair(a: string, b: string, authority: string)
    ensures RolesGuard.SomeIncluded([a, b], authority) == (Includes(authority, a) || Includes(authority, b))
  {
    assert [a, b][1..] == [b];
    SomeIncludedSingle(b, authority);
  }

  /** Helper: on `[ROLE_ADMIN]` the role guard admits exactly the authorities containing it. */
  lemma {:induction false} AdminListDecision(p: Payload)
    ensures RolesGuard.CanActivate(RolesGuard.Declared([RoleAdmin]), Some(p))
            == (if Includes(p.authority, RoleAdmin) then RolesGuard.Allow else RolesGuard.Forbidden)
  {
    RolesGuard.RoleNamesCanonical();
    RolesGuard.DeclaredDecision([RoleAdmin], p);
    SomeIncludedSingle(RoleAdmin, p.authority);
    if p.authority == "" {
      IncludesLonger(p.authority, RoleAdmin);
    }
  }

  /** Helper: on the two-role lists the role guard admits the authorities containing either. */
  lemma {:induction false} MemberListDecision(roles: seq<string>, p: Payload)
    requires roles == [RoleAdmin, RoleUser] || roles == [RoleUser, RoleAdmin]
    ensures RolesGuard.CanActivate(RolesGuard.Declared(roles), Some(p))
            == (if Includes(p.authority, RoleUser) || Includes(p.authority, RoleAdmin)
                then RolesGuard.Allow else RolesGuard.Forbidden)
  {
    RolesGuard.RoleNamesCanonical();
    RolesGuard.DeclaredDecision(roles, p);
    if p.authority == "" {
      IncludesLonger(p.authority, RoleAdmin);
      IncludesLonger(p.authority, RoleUser);
    }
    if roles == [RoleAdmin, RoleUser] {
      SomeIncludedPair(RoleAdmin, RoleUser, p.authority);
    } else {
      SomeIncludedPair(RoleUser, RoleAdmin, p.authority);
    }
  }

  /** `/login`, `/register` and `/uuid` run for anyone, with no principal bound. */
  lemma PublicRoutesAdmitAll(route: Route, cookies: Option<map<string, string>>, verify: string -> Option<Payload>)
    requires Public(route)
    ensures Admit(route, cookies, verify) == Admitted(None)
  {
  }

  /** Every other route refuses a request whose token does not verify, or that has none. */
  lemma GuardedRoutesNeedToken(route: Route, cookies: Option<map<string, string>>, verify: string -> Option<Payload>)
    requires !Public(route)
    requires AuthGuard.Authenticate(cookies, verify).None?
    ensures Admit(route, cookies, verify) == Unauthorized
  {
  }

  /** The category list and the category lookup admit every verified principal, whatever its
      authority. */
  lemma SignedInRoutesAdmitAnyPrincipal(route: Route, cookies: Option<map<string, string>>,
                                        verify: string -> Option<Payload>, p: Payload)
    requires SignedInOnly(route)
    requires AuthGuard.Authenticate(cookies, verify) == Some(p)
    ensures Admit(route, cookies, verify) == Admitted(Some(p))
  {
  }

  /** The user administration routes and category creation and update admit a verified
      principal iff its authority contains `ROLE_ADMIN`. */
  lemma {:induction false} AdminRoutesNeedAdmin(route: Route, cookies: Option<map<string, string>>,
                                                verify: string -> Option<Payload>, p: Payload)
    requires AdminOnly(route)
    requires AuthGuard.Authenticate(cookies, verify) == Some(p)
    ensures Admit(route, cookies, verify) == (if Includes(p.authority, RoleAdmin) then Admitted(Some(p)) else Forbidden)
  {
    if route.BlogCategoryCreate? || route.BlogCategoryUpdate? {
      assert DeclaredRoles(route) == Some([RoleAdmin]);
    } else {
      assert DeclaredRoles(route) == Some([RoleAdmin]);
    }
    AdmitByRoleDecision(route, cookies, verify, p);
    AdminListDecision(p);
  }

  /** Helper: on a route with both guards, a verified principal is admitted exactly when the
      role guard allows it on the route's declared roles, and is otherwise forbidden. */
  lemma {:induction false} AdmitByRoleDecision(route: Route, cookies: Option<map<string, string>>,
                                               verify: string -> Option<Payload>, p: Payload)
    requires UsesRolesGuard(route)
    requires AuthGuard.Authenticate(cookies, verify) == Some(p)
    ensures RolesGuard.CanActivate(Metadata(route), Some(p)) != RolesGuard.TypeError
    ensures Admit(route, cookies, verify)
            == (if RolesGuard.CanActivate(Metadata(route), Some(p)) == RolesGuard.Allow then Admitted(Some(p)) else Forbidden)
  {
    assert Metadata(route) == RolesGuard.Declared(DeclaredRoles(route).value);
  }

  /** The profile and logout routes and those under `/user` admit a verified principal iff its authority
      contains `ROLE_USER` or `ROLE_ADMIN`. */
  lemma {:induction false} MemberRoutesNeedRole(route: Route, cookies: Option<map<string, string>>,
                                                verify: string -> Option<Payload>, p: Payload)
    requires ForMembers(route)
    requires AuthGuard.Authenticate(cookies, verify) == Some(p)
    ensures Admit(route, cookies, verify)
            == (if Includes(p.authority, RoleUser) || Includes(p.authority, RoleAdmin) then Admitted(Some(p)) else Forbidden)
  {
    var roles := DeclaredRoles(route).value;
    assert roles == [RoleAdmin, RoleUser] || roles == [RoleUser, RoleAdmin];
    AdmitByRoleDecision(route, cookies, verify, p);
    MemberListDecision(roles, p);
  }

  /** A `ROLE_USER` principal can neither administer users nor create or change categories,
      but reaches every member route. */
  lemma {:induction false} UserPrincipal(route: Route, cookies: Option<map<string, string>>,
                                         verify: string -> Option<Payload>, p: Payload)
    requires AuthGuard.Authenticate(cookies, verify) == Some(p)
    requires p.authority == RoleUser
    ensures AdminOnly(route) ==> Admit(route, cookies, verify) == Forbidden
    ensures ForMembers(route) ==> Admit(route, cookies, verify) == Admitted(Some(p))
  {
    IncludesLonger(RoleUser, RoleAdmin);
    IncludesSameLength(RoleUser, RoleUser);
    if AdminOnly(route) {
      AdminRoutesNeedAdmin(route, cookies, verify, p);
    }
    if ForMembers(route) {
      MemberRoutesNeedRole(route, cookies, verify, p);
    }
  }

  /** `/user/profile` and `/user/myinfo` answer with the verified claims themselves. */
  lemma UserRoutesReturnPrincipal(route: Route, cookies: Option<map<string, string>>, verify: string -> Option<Payload>)
    requires route == UserProfile || route == UserMyInfo
    requires Admit(route, cookies, verify).Admitted?
    ensures Admit(route, cookies, verify).user == AuthGuard.Authenticate(cookies, verify)
    ensures Admit(route, cookies, verify).user.Some?
  {
  }

  /** Behind its guards, `/api/profile` always finds a principal, so its `UnauthorizedException`
      branch is never taken and it answers with the claims' four public fields. */
  lemma ApiProfileHasPrincipal(cookies: Option<map<string, string>>, verify: string -> Option<Payload>)
    requires Admit(ApiProfile, cookies, verify).Admitted?
    ensures AuthController.GetProfile(Admit(ApiProfile, cookies, verify).user).Some?
  {
  }

  /** A browser's cookie jar after a response's cookie operations, in order. */
  function ApplyCookies(jar: map<string, string>, ops: seq<CookieOp>): (after: map<string, string>)
    ensures forall name :: (forall k :: 0 <= k < |ops| ==> ops[k].name != name) ==>
              (name in after <==> name in jar) && (name in jar ==> after[name] == jar[name])
    decreases |ops|
  {
    if |ops| == 0 then jar
    else
      var next := (match ops[0]
        case SetCookie(name, value, _) => jar[name := value]
        case ClearCookie(name) => jar - {name});
      ApplyCookies(next, ops[1..])
  }

  /** After a successful login the browser holds both tokens... */
  lemma LoginSetsTokens(jar: map<string, string>, row: UserRow, key: string, sign: (Claims, string) -> string)
    ensures var after := ApplyCookies(jar, LoginCookies(row, key, sign));
      && AccessCookie in after && RefreshCookie in after
      && after[AccessCookie] == sign(AccessClaims(AccessPayload(row, key)), AccessTtl)
      && after[RefreshCookie] == sign(RefreshClaims(row.id), RefreshTtl)
  {
    var ops := LoginCookies(row, key, sign);
    var j1 := jar[AccessCookie := ops[0].value];
    assert ApplyCookies(jar, ops) == ApplyCookies(j1[RefreshCookie := ops[1].value], []);
  }

  /** ... and logging out removes both. */
  lemma LogoutClearsTokens(jar: map<string, string>)
    ensures var after := ApplyCookies(jar, [ClearCookie(AccessCookie), ClearCookie(RefreshCookie)]);
      AccessCookie !in after && RefreshCookie !in after
  {
    var ops := [ClearCookie(AccessCookie), ClearCookie(RefreshCookie)];
    assert ApplyCookies(jar, ops) == ApplyCookies(jar - {AccessCookie} - {RefreshCookie}, []);
  }

  /** Login stores its tokens under names the authentication guard does not read, so a browser
      holding only what login gave it is refused on every guarded route. */
  lemma {:induction false} LoginCookiesNeverAuthenticate(jar: map<string, string>, row: UserRow, key: string,
                                                         sign: (Claims, string) -> string,
                                                         verify: string -> Option<Payload>, route: Route)
    requires AuthGuard.AuthCookie !in jar
    requires !Public(route)
    ensures AuthGuard.Authenticate(Some(ApplyCookies(jar, LoginCookies(row, key, sign))), verify) == None
    ensures Admit(route, Some(ApplyCookies(jar, LoginCookies(row, key, sign))), verify) == Unauthorized
  {
    var ops := LoginCookies(row, key, sign);
    assert forall k :: 0 <= k < |ops| ==> ops[k].name != AuthGuard.AuthCookie;
  }

  /** Logging out clears the stored login key, yet a token minted before still passes the
      guards: nothing compares the token's `loginkey` with the store. `Admit` takes no store
      at all, so the second clause holds by construction; the lemma records that the guards
      model, like the source's, has no revocation check to consult. */
  lemma {:induction false} LogoutDoesNotRevoke(rows: seq<UserRow>, i: nat, route: Route,
                                               cookies: Option<map<string, string>>,
                                               verify: string -> Option<Payload>, p: Payload)
    requires i < |rows| && rows[i].id == p.id
    requires AuthGuard.Authenticate(cookies, verify) == Some(p)
    requires p.loginkey != "" && p.authority == RoleUser && ForMembers(route)
    ensures WithLoginKey(rows, p.id, "")[i].loginkey != p.loginkey
    ensures Admit(route, cookies, verify) == Admitted(Some(p))
  {
    UserPrincipal(route, cookies, verify, p);
  }
}

=== FILE: text.dfy ===
/**
 * The JavaScript string operations the guards and validators rely on:
 * `String.prototype.trim`, `toUpperCase`, `includes` and `split`.
 * Strings are sequences of code points; `Utf16Length` gives the JavaScript `length`.
 */
module Text {

  /** The code points `trim` strips: ECMAScript WhiteSpace and LineTerminator. */
  predicate IsSpace(c: char) {
    || c == '\t' || c == '\n' || c == '\U{000B}' || c == '\U{000C}' || c == '\r' || c == ' '
    || c == '\U{00A0}' || c == '\U{1680}' || ('\U{2000}' <= c <= '\U{200A}')
    || c == '\U{2028}' || c == '\U{2029}' || c == '\U{202F}' || c == '\U{205F}'
    || c == '\U{3000}' || c == '\U{FEFF}'
  }

  /** Every code point of `s` is white space. */
  predicate AllSpace(s: string) {
    forall k :: 0 <= k < |s| ==> IsSpace(s[k])
  }

  /** Drops leading white space: the result is the suffix of `s` left after its
      longest all-space prefix. */
  function TrimStart(s: string): (r: string)
    ensures |r| <= |s| && r == s[|s| - |r|..]
    ensures AllSpace(s[..|s| - |r|])
    ensures r == "" || !IsSpace(r[0])
    decreases |s|
  {
    if |s| > 0 && IsSpace(s[0]) then
      var r := TrimStart(s[1..]);
      var cut := |s| - |r|;
      assert s[1..][cut - 1..] == s[cut..];
      assert forall k :: 0 < k < cut ==> s[k] == s[1..][..cut - 1][k - 1];
      r
    else
      assert s[..0] == [];
      s
  }

  /** Drops trailing white space: the result is the prefix of `s` left after its
      longest all-space suffix. */
  function TrimEnd(s: string): (r: string)
    ensures |r| <= |s| && r == s[..|r|]
    ensures AllSpace(s[|r|..])
    ensures r == "" || !IsSpace(r[|r| - 1])
    decreases |s|
  {
    if |s| > 0 && IsSpace(s[|s| - 1]) then
      var r := TrimEnd(s[..|s| - 1]);
      assert s[..|s| - 1][..|r|] == s[..|r|];
      assert forall k :: |r| <= k < |s| - 1 ==> s[k] == s[..|s| - 1][|r|..][k - |r|];
      r
    else
      assert s[|s|..] == [];
      s
  }

  /** `String.prototype.trim`. */
  function Trim(s: string): (r: string)
    ensures r == "" || (!IsSpace(r[0]) && !IsSpace(r[|r| - 1]))
    ensures exists i, j :: 0 <= i <= j <= |s| && r == s[i..j] && AllSpace(s[..i]) && AllSpace(s[j..])
  {
    var u := TrimStart(s);
    var r := TrimEnd(u);
    TrimSlice(s, u, r);
    r
  }

  /** Helper: a prefix of an all-space-led suffix lies between all-space ends. */
  lemma {:induction false} TrimSlice(s: string, u: string, r: string)
    requires |u| <= |s| && u == s[|s| - |u|..] && AllSpace(s[..|s| - |u|])
    requires |r| <= |u| && r == u[..|r|] && AllSpace(u[|r|..])
    ensures var i := |s| - |u|; 0 <= i <= i + |r| <= |s| && r == s[i..i + |r|]
                                && AllSpace(s[..i]) && AllSpace(s[i + |r|..])
  {
    var i := |s| - |u|;
    assert r == s[i..i + |r|];
    assert u[|r|..] == s[i + |r|..];
  }

  /** Trimming a trimmed string changes nothing. */
  lemma {:induction false} TrimIdempotent(s: string)
    ensures Trim(Trim(s)) == Trim(s)
  {
    var t := Trim(s);
    if t != "" {
      assert TrimStart(t) == t;
      assert TrimEnd(t) == t;
    }
  }

  /** A string made only of white space trims to the empty string. */
  lemma {:induction false} TrimAllSpace(s: string)
    requires AllSpace(s)
    ensures Trim(s) == ""
  {
  }

  /** Trimming to the empty string means the string was all white space. */
  lemma {:induction false} TrimEmptyOnlyIfAllSpace(s: string)
    requires Trim(s) == ""
    ensures AllSpace(s)
  {
    var u := TrimStart(s);
    assert AllSpace(u[0..]);
    assert u == "";
    assert s[..|s|] == s;
  }

  /** `toUpperCase` on one code point; only the ASCII letters are mapped. */
  function UpperChar(c: char): (d: char)
    ensures 'a' <= c <= 'z' ==> 'A' <= d <= 'Z' && d as int == c as int - 32
    ensures !('a' <= c <= 'z') ==> d == c
  {
    if 'a' <= c <= 'z' then (c as int - 32) as char else c
  }

  /** `String.prototype.toUpperCase`, ASCII letters only. */
  function Upper(s: string): (r: string)
    ensures |r| == |s| && forall k :: 0 <= k < |s| ==> r[k] == UpperChar(s[k])
  {
    seq(|s|, k requires 0 <= k < |s| => UpperChar(s[k]))
  }

  /** The UTF-16 code units a code point takes: two (a surrogate pair) above the Basic
      Multilingual Plane, otherwise one. */
  function Utf16Units(c: char): (n: nat)
    ensures n == 1 || n == 2
  {
    if c as int >= 0x10000 then 2 else 1
  }

  /** `s.length`: the number of UTF-16 code units of `s`, which is at least its number of
      code points and at most twice it. */
  function Utf16Length(s: string): (n: nat)
    ensures |s| <= n <= 2 * |s|
    ensures n == |s| <==> forall k :: 0 <= k < |s| ==> s[k] as int < 0x10000
    decreases |s|
  {
    if |s| == 0 then 0 else Utf16Units(s[0]) + Utf16Length(s[1..])
  }

  /** A slice of text inside the Basic Multilingual Plane has one code unit per code point. */
  lemma {:induction false} Utf16LengthBmpSlice(s: string, i: int, j: int)
    requires 0 <= i <= j <= |s|
    requires forall k :: 0 <= k < |s| ==> s[k] as int < 0x10000
    ensures Utf16Length(s[i..j]) == j - i
  {
    var t := s[i..j];
    forall k | 0 <= k < |t| ensures t[k] as int < 0x10000 {
      assert t[k] == s[i + k];
    }
  }

  /** `t` occurs in `s` at position `i`. */
  ghost predicate OccursAt(s: string, t: string, i: int) {
    0 <= i && i + |t| <= |s| && s[i..i + |t|] == t
  }

  /** `s.includes(t)`: `t` is a prefix of `s` or of one of its suffixes. */
  predicate Includes(s: string, t: string)
    decreases |s|
  {
    (|t| <= |s| && s[..|t|] == t) || (|s| > 0 && Includes(s[1..], t))
  }

  /** `Includes` is exactly "occurs at some position". */
  lemma {:induction false} IncludesIff(s: string, t: string)
    ensures Includes(s, t) <==> exists i :: OccursAt(s, t, i)
    decreases |s|
  {
    if |s| > 0 {
      IncludesIff(s[1..], t);
      if |t| <= |s| && s[..|t|] == t {
        assert s[0..|t|] == s[..|t|];
        assert OccursAt(s, t, 0);
      }
      if Includes(s[1..], t) {
        var i :| OccursAt(s[1..], t, i);
        assert s[i + 1..i + 1 + |t|] == s[1..][i..i + |t|];
        assert OccursAt(s, t, i + 1);
      }
      if i :| OccursAt(s, t, i) {
        if i > 0 {
          assert s[1..][i - 1..i - 1 + |t|] == s[i..i + |t|];
          assert OccursAt(s[1..], t, i - 1);
        } else {
          assert s[..|t|] == s[0..|t|];
        }
      }
    } else if t == "" {
      assert OccursAt(s, t, 0);
    }
  }

  /** The empty string is included in every string. */
  lemma IncludesEmpty(s: string)
    ensures Includes(s, "")
  {
    assert s[..0] == "";
  }

  /** A string longer than `s` is never included in `s`. */
  lemma {:induction false} IncludesLonger(s: string, t: string)
    requires |t| > |s|
    ensures !Includes(s, t)
  {
    IncludesIff(s, t);
  }

  /** Between strings of the same length, inclusion is equality. */
  lemma {:induction false} IncludesSameLength(s: string, t: string)
    requires |t| == |s|
    ensures Includes(s, t) <==> s == t
  {
    IncludesIff(s, t);
    if s == t {
      assert OccursAt(s, t, 0);
    }
  }

  /** `s.split(sep)`: the maximal runs between separators, empty runs kept. */
  function Split(s: string, sep: char): (r: seq<string>)
    ensures |r| >= 1
    ensures forall k :: 0 <= k < |r| ==> sep !in r[k]
    decreases |s|
  {
    if |s| == 0 then [""]
    else
      var rest := Split(s[1..], sep);
      if s[0] == sep then [""] + rest
      else [[s[0]] + rest[0]] + rest[1..]
  }

  /** `parts.join(sep)`. */
  function Join(parts: seq<string>, sep: char): string
    requires |parts| >= 1
    decreases |parts|
  {
    if |parts| == 1 then parts[0] else parts[0] + [sep] + Join(parts[1..], sep)
  }

  /** Joining the parts of a split gives back the string. */
  lemma {:induction false} JoinSplit(s: string, sep: char)
    ensures Join(Split(s, sep), sep) == s
    decreases |s|
  {
    if |s| > 0 {
      JoinSplit(s[1..], sep);
      var rest := Split(s[1..], sep);
      if s[0] != sep {
        if |rest| == 1 {
          assert s == [s[0]] + s[1..];
        } else {
          assert rest == [rest[0]] + rest[1..];
          assert Join(rest, sep) == rest[0] + [sep] + Join(rest[1..], sep);
          assert s == [s[0]] + s[1..];
        }
      } else {
        assert s == [sep] + s[1..];
      }
    }
  }

  /** Splitting a string with a separator in it splits around that separator. */
  lemma {:induction false} SplitAround(a: string, b: string, sep: char)
    requires sep !in a
    ensures Split(a + [sep] + b, sep) == [a] + Split(b, sep)
    decreases |a|
  {
    if |a| == 0 {
      assert a + [sep] + b == [sep] + b;
      assert ([sep] + b)[1..] == b;
    } else {
      SplitAround(a[1..], b, sep);
      assert (a + [sep] + b)[1..] == a[1..] + [sep] + b;
      assert [a[0]] + a[1..] == a;
    }
  }

  /** A string without the separator splits into itself. */
  lemma {:induction false} SplitNoSeparator(a: string, sep: char)
    requires sep !in a
    ensures Split(a, sep) == [a]
    decreases |a|
  {
    if |a| > 0 {
      SplitNoSeparator(a[1..], sep);
      assert [a[0]] + a[1..] == a;
    }
  }

  /** Splitting the join of separator-free parts gives back the parts. */
  lemma {:induction false} SplitJoin(parts: seq<string>, sep: char)
    requires |parts| >= 1
    requires forall k :: 0 <= k < |parts| ==> sep !in parts[k]
    ensures Split(Join(parts, sep), sep) == parts
    decreases |parts|
  {
    if |parts| == 1 {
      SplitNoSeparator(parts[0], sep);
    } else {
      SplitJoin(parts[1..], sep);
      SplitAround(parts[0], Join(parts[1..], sep), sep);
      assert [parts[0]] + parts[1..] == parts;
    }
  }
}

=== FILE: user_entity.dfy ===
/**
 * The `User` entity: its persisted columns and the two lifecycle hooks that keep
 * a stored password hash from being hashed again. `bcrypt.hash` is the parameter `hash`.
 */
module UserEntity {
  import opened Wrappers

  /** The column default `loginkey` takes when a row is inserted without one. */
  const DefaultLoginKey := "1234567890"

  /** A persisted `user` row (timestamps and relations are not modelled). */
  datatype UserRow = UserRow(
    id: int,
    username: string,
    password: string,
    nickname: string,
    email: string,
    loginkey: string,
    authority: string)

  /** `hashPassword`'s test: the password is non-empty and differs from the value
      snapshotted when the entity was loaded (`None`: never loaded). */
  predicate NeedsHash(password: string, snapshot: Option<string>) {
    password != "" && snapshot != Some(password)
  }

  /** The entity object the repository hands out and saves. */
  class User {
    var id: int
    var username: string
    var password: string
    var nickname: string
    var email: string
    var loginkey: string
    var authority: string
    /** `tempPassword`: `None` until `@AfterLoad` has run. */
    var tempPassword: Option<string>

    /** `repository.create`: a new entity, never loaded. Its id is assigned on
        insert, and its login key is the column default. */
    constructor Create(username: string, password: string, nickname: string, email: string, authority: string)
      ensures this.username == username && this.password == password && this.nickname == nickname
      ensures this.email == email && this.authority == authority
      ensures loginkey == DefaultLoginKey && tempPassword == None
    {
      id := 0;
      this.username := username;
      this.password := password;
      this.nickname := nickname;
      this.email := email;
      loginkey := DefaultLoginKey;
      this.authority := authority;
      tempPassword := None;
    }

    /** An entity read from a row; the ORM then runs the `@AfterLoad` hook. */
    constructor Load(row: UserRow)
      ensures Row() == row && tempPassword == Some(row.password)
    {
      id := row.id;
      username := row.username;
      password := row.password;
      nickname := row.nickname;
      email := row.email;
      loginkey := row.loginkey;
      authority := row.authority;
      tempPassword := None;
      new;
      LoadTempPassword();
    }

    /** The row this entity's columns describe. */
    function Row(): (row: UserRow)
      reads this
      ensures row.id == id && row.username == username && row.password == password
      ensures row.nickname == nickname && row.email == email
      ensures row.loginkey == loginkey && row.authority == authority
    {
      UserRow(id, username, password, nickname, email, loginkey, authority)
    }

    /** `@AfterLoad loadTempPassword`: snapshot the stored password. */
    method LoadTempPassword()
      modifies this`tempPassword
      ensures tempPassword == Some(password)
    {
      tempPassword := Some(password);
    }

    /** `@BeforeInsert @BeforeUpdate hashPassword`: replace the password by its hash when
        it is non-empty and not the loaded value. The snapshot is not refreshed. */
    method HashPassword(hash: string -> string)
      modifies this`password
      ensures password == if NeedsHash(old(password), tempPassword) then hash(old(password)) else old(password)
    {
      if password != "" && Some(password) != tempPassword {
        password := hash(password);
      }
    }
  }

  /** What a new entity's password is stored as: its hash, unless it is empty. */
  function StoredPassword(password: string, hash: string -> string): (stored: string)
    ensures password == "" ==> stored == ""
    ensures password != "" ==> stored == hash(password)
  {
    if NeedsHash(password, None) then hash(password) else password
  }

  /** A loaded entity whose password was not touched keeps its stored hash, so unrelated
      updates never double-hash. */
  lemma LoadedUnchangedKept(password: string)
    ensures !NeedsHash(password, Some(password))
  {
  }

  /** An empty password is never hashed. */
  lemma EmptyNeverHashed(snapshot: Option<string>)
    ensures !NeedsHash("", snapshot)
  {
  }

  /** A password changed after loading is hashed on save. */
  lemma ChangedAfterLoadHashed(stored: string, password: string)
    requires password != "" && password != stored
    ensures NeedsHash(password, Some(stored))
  {
  }

  /** Because the snapshot is not refreshed after hashing, saving a never-loaded entity a
      second time hashes the hash again. */
  lemma SecondSaveRehashes(password: string, hash: string -> string)
    requires password != "" && hash(password) != ""
    ensures NeedsHash(StoredPassword(password, hash), None)
  {
  }
}

=== FILE: user_store.dfy ===
/**
 * The `User` and `UserLoginlog` repositories as an in-memory store: user rows in
 * insertion order, the next generated id, and the append-only login log.
 */
module UserStore {
  import opened Wrappers
  import opened UserEntity

  /** `ResultType`. */
  datatype ResultType = Success | Error

  /** A `user_loginlog` row. */
  datatype LoginLogEntry = LoginLogEntry(
    username: string,
    loginkey: string,
    connectUrl: Option<string>,
    loginResult: ResultType)

  /** Ids are the primary key: no two rows share one. */
  ghost predicate UniqueIds(rows: seq<UserRow>) {
    forall i, j :: 0 <= i < j < |rows| ==> rows[i].id != rows[j].id
  }

  /** The lookup by username: the first row with exactly that username. */
  function IndexOfUsername(rows: seq<UserRow>, username: string): (found: Option<nat>)
    ensures found.Some? ==> found.value < |rows| && rows[found.value].username == username
    ensures found.Some? ==> forall j :: 0 <= j < found.value ==> rows[j].username != username
    ensures found.None? <==> forall j :: 0 <= j < |rows| ==> rows[j].username != username
    decreases |rows|
  {
    if |rows| == 0 then None
    else if rows[0].username == username then Some(0)
    else match IndexOfUsername(rows[1..], username)
      case None => None
      case Some(k) => Some(k + 1)
  }

  /** The lookup by nickname: whether some row has exactly that nickname. */
  function IndexOfNickname(rows: seq<UserRow>, nickname: string): (found: Option<nat>)
    ensures found.Some? ==> found.value < |rows| && rows[found.value].nickname == nickname
    ensures found.None? <==> forall j :: 0 <= j < |rows| ==> rows[j].nickname != nickname
    decreases |rows|
  {
    if |rows| == 0 then None
    else if rows[0].nickname == nickname then Some(0)
    else match IndexOfNickname(rows[1..], nickname)
      case None => None
      case Some(k) => Some(k + 1)
  }

  /** A delete by id: the rows whose id is not `id`, in their order. */
  function WithoutId(rows: seq<UserRow>, id: int): (rest: seq<UserRow>)
    ensures forall k :: 0 <= k < |rest| ==> rest[k].id != id
    ensures forall r :: r in rest ==> r in rows
    ensures |rest| <= |rows|
    decreases |rows|
  {
    if |rows| == 0 then []
    else
      var tail := WithoutId(rows[1..], id);
      assert forall r :: r in tail ==> r in rows by {
        forall r | r in tail ensures r in rows {
          var k :| 0 <= k < |rows[1..]| && rows[1..][k] == r;
          assert rows[k + 1] == r;
        }
      }
      (if rows[0].id == id then [] else [rows[0]]) + tail
  }

  /** Every row left by a delete was already there. */
  lemma {:induction false} WithoutIdMember(rows: seq<UserRow>, id: int, k: nat)
    requires k < |WithoutId(rows, id)|
    ensures WithoutId(rows, id)[k] in rows[1..] || (k == 0 && WithoutId(rows, id)[k] == rows[0])
    decreases |rows|
  {
    var rest := WithoutId(rows[1..], id);
    if rows[0].id == id {
      assert WithoutId(rows, id) == rest;
      WithoutIdMember(rows[1..], id, k);
    } else {
      assert WithoutId(rows, id) == [rows[0]] + rest;
      if k > 0 {
        WithoutIdMember(rows[1..], id, k - 1);
      }
    }
  }

  /** With unique ids, deleting a row's id removes exactly that row. */
  lemma {:induction false} WithoutUniqueId(rows: seq<UserRow>, i: nat)
    requires UniqueIds(rows) && i < |rows|
    ensures WithoutId(rows, rows[i].id) == rows[..i] + rows[i + 1..]
    decreases |rows|
  {
    var id := rows[i].id;
    assert UniqueIds(rows[1..]) by {
      forall a, b | 0 <= a < b < |rows[1..]| ensures rows[1..][a].id != rows[1..][b].id {
        assert rows[1..][a] == rows[a + 1] && rows[1..][b] == rows[b + 1];
      }
    }
    if i == 0 {
      forall j | 0 <= j < |rows[1..]| ensures rows[1..][j].id != id {
        assert rows[1..][j] == rows[j + 1];
      }
      WithoutAbsentId(rows[1..], id);
      assert WithoutId(rows, id) == [] + WithoutId(rows[1..], id);
      assert rows[i + 1..] == rows[1..];
    } else {
      assert rows[0].id != id;
      assert WithoutId(rows, id) == [rows[0]] + WithoutId(rows[1..], id);
      WithoutUniqueId(rows[1..], i - 1);
      assert rows[1..][i - 1].id == id;
      assert rows[..i] == [rows[0]] + rows[1..][..i - 1];
      assert rows[i + 1..] == rows[1..][i..];
    }
  }

  /** Deleting an id no row has changes nothing. */
  lemma {:induction false} WithoutAbsentId(rows: seq<UserRow>, id: int)
    requires forall j :: 0 <= j < |rows| ==> rows[j].id != id
    ensures WithoutId(rows, id) == rows
    decreases |rows|
  {
    if |rows| > 0 {
      WithoutAbsentId(rows[1..], id);
      assert [rows[0]] + rows[1..] == rows;
    }
  }

  /** A login-key update by id: the rows with that id get the new key, the rest are kept. */
  function WithLoginKey(rows: seq<UserRow>, id: int, key: string): (updated: seq<UserRow>)
    ensures |updated| == |rows|
    ensures forall k :: 0 <= k < |rows| ==>
      updated[k] == if rows[k].id == id then rows[k].(loginkey := key) else rows[k]
  {
    seq(|rows|, k requires 0 <= k < |rows| => if rows[k].id == id then rows[k].(loginkey := key) else rows[k])
  }

  /** The repositories' state. */
  class Store {
    var rows: seq<UserRow>
    var nextId: int
    var loginLog: seq<LoginLogEntry>

    /** Ids are unique and below the next id to be generated. */
    ghost predicate Valid()
      reads this
    {
      && UniqueIds(rows)
      && forall i :: 0 <= i < |rows| ==> rows[i].id < nextId
    }

    /** Empty repositories; generated ids start at 1. */
    constructor ()
      ensures Valid() && rows == [] && loginLog == [] && nextId == 1
    {
      rows := [];
      nextId := 1;
      loginLog := [];
    }

    /** `save(user)` of a new entity: run `@BeforeInsert`, generate the id, insert the row. */
    method Insert(user: User, hash: string -> string)
      requires Valid()
      modifies this, user`password, user`id
      ensures Valid()
      ensures user.id == old(nextId) && nextId == old(nextId) + 1
      ensures user.password == if NeedsHash(old(user.password), user.tempPassword)
                               then hash(old(user.password)) else old(user.password)
      ensures rows == old(rows) + [user.Row()] && loginLog == old(loginLog)
    {
      user.HashPassword(hash);
      user.id := nextId;
      rows := rows + [user.Row()];
      nextId := nextId + 1;
    }

    /** `save(user)` of a loaded entity: run `@BeforeUpdate`, overwrite its row. */
    method Save(i: nat, user: User, hash: string -> string)
      requires Valid() && i < |rows| && user.id == rows[i].id
      modifies this, user`password
      ensures Valid()
      ensures user.password == if NeedsHash(old(user.password), user.tempPassword)
                               then hash(old(user.password)) else old(user.password)
      ensures rows == old(rows)[i := user.Row()]
      ensures nextId == old(nextId) && loginLog == old(loginLog)
    {
      user.HashPassword(hash);
      rows := rows[i := user.Row()];
    }

    /** The repository's delete by id. */
    method Delete(id: int)
      requires Valid()
      modifies this
      ensures Valid()
      ensures rows == WithoutId(old(rows), id)
      ensures nextId == old(nextId) && loginLog == old(loginLog)
    {
      rows := WithoutId(rows, id);
      forall i, j | 0 <= i < j < |rows| ensures rows[i].id != rows[j].id {
        DeleteKeepsUnique(old(rows), id, i, j);
      }
      forall k | 0 <= k < |rows| ensures rows[k].id < nextId {
        WithoutIdMember(old(rows), id, k);
      }
    }

    /** A login-key update by id: a direct update, which runs no entity hook. */
    method UpdateLoginKey(id: int, key: string)
      requires Valid()
      modifies this
      ensures Valid()
      ensures rows == WithLoginKey(old(rows), id, key)
      ensures nextId == old(nextId) && loginLog == old(loginLog)
    {
      rows := WithLoginKey(rows, id, key);
    }

    /** Appends an entry to the login log. */
    method AppendLog(entry: LoginLogEntry)
      modifies this`loginLog
      ensures loginLog == old(loginLog) + [entry]
    {
      loginLog := loginLog + [entry];
    }
  }

  /** Helper: deleting rows keeps the remaining ids distinct. */
  lemma {:induction false} DeleteKeepsUnique(rows: seq<UserRow>, id: int, i: nat, j: nat)
    requires UniqueIds(rows)
    requires i < j < |WithoutId(rows, id)|
    ensures WithoutId(rows, id)[i].id != WithoutId(rows, id)[j].id
    decreases |rows|
  {
    var rest := WithoutId(rows[1..], id);
    assert UniqueIds(rows[1..]) by {
      forall a, b | 0 <= a < b < |rows[1..]| ensures rows[1..][a].id != rows[1..][b].id {
        assert rows[1..][a] == rows[a + 1] && rows[1..][b] == rows[b + 1];
      }
    }
    if rows[0].id == id {
      assert WithoutId(rows, id) == rest;
      DeleteKeepsUnique(rows[1..], id, i, j);
    } else {
      assert WithoutId(rows, id) == [rows[0]] + rest;
      if i == 0 {
        var r := WithoutId(rows, id)[j];
        WithoutIdMember(rows, id, j);
        var k :| 0 <= k < |rows[1..]| && rows[1..][k] == r;
        assert rows[k + 1] == r;
      } else {
        DeleteKeepsUnique(rows[1..], id, i - 1, j - 1);
      }
    }
  }
}

=== FILE: wrappers.dfy ===
/** An optional value, standing for a JavaScript value that may be `undefined`. */
module Wrappers {

  datatype Option<+T> = None | Some(value: T) {

    /** The wrapped value, or `default` when there is none (the `??` operator). */
    function GetOr(default: T): T {
      match this
      case Some(v) => v
      case None => default
    }
  }
}
